=== FILE: README.md ===
# js-sandbox bridge, modelled in Dafny

js-sandbox runs JavaScript functions from Rust. It embeds a JavaScript engine (V8 through
deno_core), loads a script and calls its functions with JSON-encoded arguments. A
JavaScript function cannot return a value to the host directly. So each call runs a small
generated program that calls the target and hands its result to the `op_return` op. That
op stores the result in the engine's resource table. The host then reads the entry under
`last_rid`, its own counter of completed calls, and advances the counter by one.

This project models the bridge around the engine:

- `outcomes.dfy` (`Outcomes`): `Option`, `Result`, and `Outcome`. An `Outcome` is a
  `Result` that may also end in a panic. It also holds `Traverse`, a loop that stops at
  the first error.
- `json.dfy` (`Json`): `JsValue`, its compact text form (`Value::to_string`) and a reader
  for that text. The reader is a reader of that JSON text, so the text written for a
  value reads back as that value: a proved round trip. The engine reads the argument
  list as JavaScript source, which differs in the ways listed under "## Left out".
- `js_error.dfy` (`JsErrors`): `JsError` with its two variants, its two `From`
  conversions and `Display` (js-sandbox/src/js_error.rs).
- `call_args.dfy` (`CallArgs`): `CallArgs::into_arg_string` for tuples of 0 to 5
  elements (js-sandbox/src/call_args.rs).
- `resources.dfy` (`Resources`): the resource table as a map plus a next-id counter.
- `engine.dfy` (`Engine`): a run of generated code as the host observes it (`Exec`), and
  how the generated program turns a function's behaviour into such a run.
- `script.dfy` (`Scripts`): `Script` from js-sandbox/src/script.rs. It covers
  construction, `with_timeout`, the invocation program, `op_return`, `call_impl`,
  `call_json` and `call`. The invariant `Synced` says that no result is waiting and the
  next deposit lands in the slot the host reads next.
- `util.dfy` (`Util`): `eval_json` from js-sandbox/src/util.rs.
- `legacy_script.dfy` (`LegacyScripts`): the earlier synchronous `Script` of
  src/script.rs.
- `js_api_macro.dfy` (`JsApiMacro`): the `#[js_api]` macro from
  js-sandbox-macros/src/lib.rs. It is modelled over a syntax tree shaped like syn's. It
  covers validation, return-type classification, transforms and the packing of the
  argument tuple.

What the engine does with a program is a parameter, not part of the model:

- Whether a program loads is a parameter `loadError`.
- What a call's run does is a parameter `x: Exec`:
  - `Deposited(v)`: the run deposited `v`.
  - `Threw(e)`: the run failed.
  - `Silent`: the run completed without depositing anything.
  - `DepositedThenThrew(v, e)`: the run deposited `v`, then the event loop failed.
- serde's conversion of Rust values to and from JSON is a pair of possibly failing
  function parameters, `toValue` and `fromValue`.

The crate uses two error types, `AnyError` and `JsError`, and its functions do not agree
on which one they return. The model uses `JsError` everywhere and lifts engine errors
with `FromAnyError`.

Three defects of the code are listed under "## Findings". For each, the model has a
member for the code as written, named `...AsWritten` and used wherever the source's own
behaviour is stated (`Scripts.CallJson`, `Scripts.Call`, `JsApiMacro.Invoke`,
`Util.EvalJson`), and a corrected member named without the suffix or with `Corrected`,
with lemmas saying where the two agree.

Where the code and its description differ, the model follows the code:

- The receiver check reads only the `mut` of the receiver, so `mut self` is accepted
  along with `&mut self`.
- The macro does not check a method's generics or `where` clauses.
- A return type the macro rejects gets the fixed message "unsupported return type; …".
  The message does not name the type.
- A missing result is not an error value. `call_impl` panics with a message that starts
  with "Resource entry must be present", and the legacy version panics through
  `Option::unwrap`.
- There is no separate timeout error. A terminated run is one more `Threw`.
- `create_script` in js-sandbox/src/script.rs executes the code under "sandboxed.js"
  whatever file name it is given, so the file name `from_file` computes is never used.
  The legacy version does use the name.

## Model

| member | source | states |
|---|---|---|
| Outcomes.Traverse | js-sandbox/src/call_args.rs:28-32 | succeeds exactly when every element converts; the results keep the input order; on failure the error is the one of the first failing element |
| Json.Render | js-sandbox/src/call_args.rs:30 | the compact JSON text is never empty, and its first character tells the kind of value: a quote exactly for a string, `[` for an array, `{` for an object, a digit or `-` for a number |
| Json.ReadRender | js-sandbox/src/call_args.rs:30 | the compact JSON text of any value is read back as exactly that value, leaving whatever non-digit text follows |
| Json.ReadJoinedArgs | js-sandbox/src/call_args.rs:28-34 | the comma-joined texts of a list of values are read back as that list, in order; the empty text is the empty list |
| JsErrors.FromAnyError | js-sandbox/src/js_error.rs:26-30 | converting an engine error always gives the `Runtime` variant holding that error |
| JsErrors.FromJsonError | js-sandbox/src/js_error.rs:32-36 | converting a serde_json error always gives the `Json` variant holding that error |
| JsErrors.JsError.Display | js-sandbox/src/js_error.rs:17-24 | the display of either variant is the text of the wrapped error, with nothing added |
| JsErrors.DisplayOfConverted | js-sandbox/src/js_error.rs:17-24 | the display of a converted error is the display of the wrapped error |
| JsErrors.ConversionsDistinct | js-sandbox/src/js_error.rs:26-36 | the two conversions never give the same error, and each is injective |
| JsErrors.EveryErrorConverted | js-sandbox/src/js_error.rs:10-13 | every error is exactly one of the two variants, and is the conversion of what it wraps |
| CallArgs.IntoArgString | js-sandbox/src/call_args.rs:14-44 | for 0 to 5 elements: succeeds exactly when every element converts; the text is read back as the converted values in tuple order; `()` gives the empty text; one element gives exactly its JSON text; a failure is the `Json` error of the first failing element |
| CallArgs.OneFailureFailsAll | js-sandbox/src/call_args.rs:30 | one element that cannot be converted fails the whole encoding with a `Json` error |
| Resources.TakeAfterAdd | js-sandbox/src/script.rs:150-162 | taking the id just handed out returns the value just added and restores the table's entries |
| Engine.NullIfUndefined | js-sandbox/src/script.rs:124-125 | `undefined` becomes `null`; any other result is kept |
| Engine.RunInvocation | js-sandbox/src/script.rs:121-131 | a call deposits exactly when the function returns, and deposits its result with `undefined` as `null`; an exception fails the run without a deposit; a function that never settles deposits nothing |
| Scripts.CreateScript | js-sandbox/src/script.rs:165-182 | fails exactly when the engine rejects the code, with that error; otherwise the code was executed once, `last_rid` is 0, no timeout is set and the table is empty |
| Scripts.FromString | js-sandbox/src/script.rs:39-46 | the engine executes the console shim followed by the user code, and nothing else; a fresh script has `last_rid` 0 and no timeout |
| Scripts.WithTimeout | js-sandbox/src/script.rs:75-81 | succeeds exactly when no timeout is set and the duration is positive, and panics otherwise; it sets the timeout and leaves `last_rid` and the runtime unchanged |
| Scripts.TimeoutSetOnce | js-sandbox/src/script.rs:74-77 | a second `with_timeout` always panics |
| Scripts.InvocationSource | js-sandbox/src/script.rs:121-131 | the program opens with the async closure; the call expression with the name and arguments inserted verbatim comes next, then the `undefined` guard, then `op_return`; the awaited call `await f(a)` occurs in it; the call expression can be read back from the program |
| Scripts.CallOfOnlyInvocations | js-sandbox/src/script.rs:121-131 | the call expression is recovered from exactly the programs `call_impl` writes |
| Scripts.InvocationArgsRecoverable | js-sandbox/src/script.rs:121-131 | two programs calling the same function are equal exactly when their argument texts are |
| Scripts.OpReturn | js-sandbox/src/script.rs:197-207 | adds exactly one entry, holding the argument, under the next id; every other entry keeps its value; returns `null` |
| Scripts.Run | js-sandbox/src/script.rs:146-148 | the code is executed under "sandboxed.js"; the run's deposit, if any, goes through `op_return`; an error is reported exactly when the run fails |
| Scripts.CallImplAsWritten | js-sandbox/src/script.rs:116-163 | a failed run returns its error and leaves `last_rid` and the table as the run left them, so a result deposited before the failure stays in the table; in step, such a run leaves the script out of step and every other run keeps it in step; a success returns the entry stored under `last_rid`, removes it and advances `last_rid` by one; it panics exactly when the run succeeded and that entry is missing |
| Scripts.CallImpl | js-sandbox/src/script.rs:116-163 | the corrected call, which frees the slot of a run that deposited and then failed: it keeps `Synced`; starting in step, it returns a value exactly when the run deposited without failing, and that value is the deposit; it panics exactly when the run deposited nothing and did not fail; `last_rid` advances exactly when the run deposited |
| Scripts.CallImplAsWrittenAgrees | js-sandbox/src/script.rs:146-162 | in step, the corrected call and the call as written agree on every run except one that deposits and then fails |
| Scripts.CallJson | js-sandbox/src/script.rs:112-114 | the argument value's JSON text is the argument list of the call as written; a failure returns the run's error with `last_rid` unchanged; in step, and unless the run deposits and then fails, it stays in step, returns exactly the deposited value and panics exactly on a run that deposits nothing; a run that deposits and then fails leaves it out of step; in every case the result is that of the call as written on the value's text |
| Scripts.CallJsonCorrected | js-sandbox/src/script.rs:112-114 | the same over the corrected call: it stays in step on every run, and equals the call as written on every run that does not deposit and then fail |
| Scripts.DecodeOutcome | js-sandbox/src/script.rs:100 | a deposited value is converted with `from_value`, and a conversion failure becomes a `Json` error; errors and panics of the call pass unchanged |
| Scripts.Call | js-sandbox/src/script.rs:93-103 | over the call as written: an encoding failure returns the encoding's error before anything runs and leaves the script as it was; a failed run returns its error; in step, a run that deposits nothing panics on the empty slot; a deposit advances `last_rid` and gives the converted value, or the `Json` error of the conversion; in every case after a successful encoding the result is the as-written call's outcome converted with `fromValue`, so out of step it is the stale entry's value |
| Scripts.CallCorrected | js-sandbox/src/script.rs:93-103 | the same over the corrected call: it stays in step on every run, and equals the call as written on every run that does not deposit and then fail |
| Scripts.EachCallReadsOwnResult | js-sandbox/src/script.rs:150-162 | with the corrected call, in any series of calls from a script in step, each call returns a value exactly when its own run deposited without failing, and returns that deposit; the script stays in step |
| Scripts.SeriesAgree | js-sandbox/src/script.rs:146-162 | starting in step, a series with no run that deposits and then fails goes the same way as written and corrected |
| Scripts.EachCallReadsOwnResultAsWritten | js-sandbox/src/script.rs:150-162 | as written, from a script in step, each call of a series with no run that deposits and then fails returns its own run's deposit, and the script stays in step |
| Scripts.CounterReturnsOneThenTwo | js-sandbox/tests/test_script.rs:148-162 | the tuple `((),)` is sent as the argument text `null`; two calls of a counter with it on a fresh script return 1, then 2, and leave `last_rid` at 1, then 2 |
| Scripts.StaleResultAsWritten | js-sandbox/src/script.rs:146-160 | as written, after a run that deposits 1 and then fails, the next call that deposits 2 returns 1 |
| Scripts.StaleCallResultAsWritten | js-sandbox/src/script.rs:93-103 | through `Script::call` with `((),)`: a run that deposits 1 and then fails returns its error and leaves the script out of step, and the next call, whose run deposits 2, returns 1 |
| Scripts.OwnResultCorrected | js-sandbox/src/script.rs:146-160 | with the slot freed, the same two calls return the error and then 2 |
| Util.EvalSource | js-sandbox/src/util.rs:11-17 | the expression is inserted verbatim between the fixed wrapper head and tail and can be recovered from the program |
| Util.ExprOfOnlyEvalSources | js-sandbox/src/util.rs:11-17 | recovering an expression succeeds on exactly the programs the wrapper writes |
| Util.EvalJson | js-sandbox/src/util.rs:10-21 | a load failure is returned as a runtime error before any call; otherwise the result is the deposited value, and a failed run is returned as its runtime error |
| Util.EvalJsonOfSettlement | js-sandbox/src/util.rs:10-21 | for every way the expression ends: its value with `undefined` as `null` when it returns; the exception when it throws; the event loop's error when that fails; the empty-slot panic when a promise never settles |
| Util.EvalCallsWrapperWithNull | js-sandbox/src/util.rs:19-20 | the fresh script starts at slot 0; the program run calls `__rust_expr(null)`; the value is read from slot 0 and the script ends in step at slot 1 |
| Util.UndefinedEvaluatesToNull | tests/test_eval.rs:8-14 | an expression evaluating to `undefined` returns `null` |
| LegacyScripts.CreateScript | src/script.rs:90-96 | fails exactly when the engine rejects the code; otherwise the code was executed under the given file name and `last_rid` is 0 |
| LegacyScripts.FromString | src/script.rs:26-31 | the same console shim is prepended to the user code |
| LegacyScripts.InvocationSource | src/script.rs:68-75 | the block opens with a direct synchronous call `f(a)`, then the `undefined` guard, then the call to the `__rust_return` op; the call can be read back from the block |
| LegacyScripts.CallOfOnlyInvocations | src/script.rs:68-75 | the call is recovered from exactly the blocks `call_json` writes |
| LegacyScripts.InvocationArgsRecoverable | src/script.rs:68-75 | two blocks calling the same function are equal exactly when their argument texts are |
| LegacyScripts.CallJson | src/script.rs:63-88 | an exception returns its error with `last_rid` unchanged; a success advances `last_rid` by one; in step it never panics and returns the function's result with `undefined` as `null` |
| LegacyScripts.Call | src/script.rs:53-61 | a conversion failure of the argument returns its `Json` error before anything runs; an exception returns its error; in step, a returned value is converted, and a conversion failure becomes a `Json` error |
| LegacyScripts.ReturnIdIsLastRid | src/script.rs:98-108 | in step, the id the op gets for the result equals `last_rid`, the assertion the source leaves commented out |
| JsApiMacro.ReceiverOf | js-sandbox-macros/src/lib.rs:87 | a receiver is found exactly when the first input is one |
| JsApiMacro.CheckParam | js-sandbox-macros/src/lib.rs:101-123 | a receiver is skipped; a typed parameter is accepted exactly when it is a bare identifier with no `ref`, `mut` or `@`, and then gives its name |
| JsApiMacro.CollectParams | js-sandbox-macros/src/lib.rs:101-123 | succeeds exactly when every parameter is accepted, with the names in declaration order; otherwise the error is the first rejected parameter's |
| JsApiMacro.CheckMethod | js-sandbox-macros/src/lib.rs:73-99 | an accepted item is a method, and the names it yields are its parameters in order |
| JsApiMacro.ParseReturnTypeAsWritten | js-sandbox-macros/src/lib.rs:167-206 | no return type is `Unit`; from the first path segment only: `ResultWrap(T)` exactly when its identifier is `JsResult` or `js_sandbox_ios::JsResult` and its first argument is a type `T`; rejected exactly for non-path types, empty paths and those identifiers without a type argument; `Direct` with the whole type otherwise; every rejection carries the fixed message |
| JsApiMacro.ParseReturnTypeAgrees | js-sandbox-macros/src/lib.rs:167-206 | the code as written and the corrected classifier agree on every return type that does not start with the crate name or the qualified identifier |
| JsApiMacro.ParseReturnType | js-sandbox-macros/src/lib.rs:167-206 | the corrected classifier: `Unit` exactly for no return type; `ResultWrap(T)` exactly for `JsResult<T>`, with or without the crate path; `Direct` keeps the whole type; rejected exactly for non-path types, empty paths and a `JsResult` without a type argument |
| JsApiMacro.TransformFor | js-sandbox-macros/src/lib.rs:131-149 | only `JsResult<T>` methods pass the result through; the others panic on failure |
| JsApiMacro.PackArgsAsWritten | js-sandbox-macros/src/lib.rs:154-156 | the tuple as written has 3n+1 tokens for n ≥ 1 parameters, one comma too many per gap |
| JsApiMacro.PackedArgsAsWritten | js-sandbox-macros/src/lib.rs:154-156 | the tuple as written is valid Rust exactly for zero or one parameter, where it equals the corrected tuple |
| JsApiMacro.TwoParamsAsWritten | js-sandbox-macros/src/lib.rs:154-156 | for parameters `a, b` the tokens are `(a,,b,)`, which is not a tuple |
| JsApiMacro.PackArgs | js-sandbox-macros/src/lib.rs:154-156 | the corrected tuple of n names has 2n+2 tokens: the parentheses, and one name and one comma per parameter |
| JsApiMacro.PackedArgsParse | js-sandbox-macros/src/lib.rs:154-156 | the corrected tuple reads back as the parameter names, in order, for every number of parameters |
| JsApiMacro.GenerateMethod | js-sandbox-macros/src/lib.rs:71-161 | the corrected macro: the generated call uses the method's identifier as the JavaScript name, packs the parameters in declaration order into a tuple that reads back as them, and uses the corrected return-type classification and its transform |
| JsApiMacro.GenerateMethodAsWritten | js-sandbox-macros/src/lib.rs:71-161 | the macro as written: accepted exactly when the method checks pass and the return type as written is supported, else the first error; the call uses the method's identifier and its parameter names in order; the packed tuple is valid exactly for at most one parameter |
| JsApiMacro.GenerateMethodAgrees | js-sandbox-macros/src/lib.rs:71-161 | on non-methods and on methods with at most one parameter and a return type not starting with the crate name, the macro as written generates what the corrected one does |
| JsApiMacro.AddGeneratedAsWritten | js-sandbox-macros/src/lib.rs:154-156 | `fn add(&mut self, a: i32, b: i32) -> i32` is accepted as written with a tuple that is not valid Rust; corrected, its tuple reads back as `a, b` |
| JsApiMacro.AcceptedExactly | js-sandbox-macros/src/lib.rs:73-131 | for the corrected macro, a method is accepted exactly when it is a method without `const`, `async` or body, with a `mut` receiver first, bare-identifier parameters and a return type the corrected classifier supports |
| JsApiMacro.AcceptedExactlyAsWritten | js-sandbox-macros/src/lib.rs:73-131 | the macro as written accepts a method under the same conditions, with the return type read as written |
| JsApiMacro.RejectionOrder | js-sandbox-macros/src/lib.rs:74-99 | a non-method, `const`, `async`, a default body, a missing receiver and a receiver without `mut` are rejected with their own messages, checked in that order |
| JsApiMacro.ParamErrorFirst | js-sandbox-macros/src/lib.rs:101-131 | a rejected parameter gives the error of the first rejected one, before any return-type error |
| JsApiMacro.ReceiverKinds | js-sandbox-macros/src/lib.rs:87-99 | a receiver is rejected as a value or shared reference exactly when it has no `mut`; a method without receiver is rejected as associated |
| JsApiMacro.GenerateImplMethods | js-sandbox-macros/src/lib.rs:71-165 | the corrected macro: succeeds exactly when every item is accepted, with one method per item in order, each calling the function of its own name; otherwise the error is the first rejected item's |
| JsApiMacro.GenerateImplMethodsAsWritten | js-sandbox-macros/src/lib.rs:71-165 | the macro as written: the same, over the methods as written |
| JsApiMacro.GenerateImplMethodsAgree | js-sandbox-macros/src/lib.rs:71-165 | a trait whose items are all ones where the two versions agree is expanded alike |
| JsApiMacro.Wrap | js-sandbox-macros/src/lib.rs:131-149 | pass-through keeps the result; expect turns a failure into a panic with its message and never returns an error |
| JsApiMacro.Invoke | js-sandbox-macros/src/lib.rs:131-160 | runs only a method whose packed tuple parses as its parameter tuple; the generated body leaves the script as `Script::call`, as written, with the method's name and parameter values does; its result is that call's result under the method's transform: a `JsResult<T>` method returns it unchanged, the other shapes return a successful or panicking call unchanged and turn a failed call into a panic with the method's `expect` message, never an error |
| JsApiMacro.FailureByShape | js-sandbox-macros/src/lib.rs:131-149 | on a failed call a `JsResult<T>` method returns the error, a `T` method panics with "cannot convert to type `T`" and a unit method panics with "JS function call failed" |
| JsApiMacro.QualifiedNameNeverAnIdent | js-sandbox-macros/src/lib.rs:183 | no identifier equals `js_sandbox_ios::JsResult`, so the second comparison never holds |
| JsApiMacro.QualifiedResultAsWritten | js-sandbox-macros/src/lib.rs:174-196 | as written, `js_sandbox_ios::JsResult<T>` is classified as a plain type, never as `ResultWrap(T)`, so the generated method asks `call` to decode the whole `JsResult<T>` under the plain-type `expect` |
| JsApiMacro.QualifiedResultCorrected | js-sandbox-macros/src/lib.rs:174-196 | corrected, `js_sandbox_ios::JsResult<T>` and `JsResult<T>` are both `ResultWrap(T)` and return errors unchanged |
| JsApiMacro.TripleGenerated | js-sandbox/tests/test_js_api.rs:5-8 | `fn triple(&mut self, a: i32) -> JsResult<i32>` generates, as written and corrected, one pass-through call of `triple` with the tuple `(a,)` |
| JsApiMacro.TripleReturns15 | js-sandbox/tests/test_js_api.rs:16-29 | `triple(5)` sends the argument list `5` and, when the run deposits 15, returns 15 |
| JsApiMacro.SaveLoadGenerated | js-sandbox/tests/test_js_api.rs:10-14 | as written and corrected, `save` becomes a unit call that panics with "JS function call failed", and `load` a `String` call that panics with "cannot convert to type `String`" |

## Left out

- JavaScript semantics, V8, deno_core's event loop and op registration. What a run
  does is the parameter `Exec`, and `Engine.RunInvocation` relates it to the
  function's behaviour.
- A non-async function that returns a promise: the generated program does not await
  it and deposits the promise object. This is engine behaviour and is not modelled.
- The timeout watcher thread and `terminate_execution`. This is concurrency. A
  terminated run appears as a failed run, `Threw`.
- `from_file` in both versions. It reads a file, which is I/O.
- serde's conversion of arbitrary Rust types. It is the parameters `toValue` and
  `fromValue`.
- Floating-point numbers. `JsValue` numbers are unbounded integers. The engine reads
  an argument list as JavaScript source, not as JSON, so two of its readings differ
  from the model's reader: an integer of serde's `i64`/`u64` range above 2^53 (such as
  2^53+1) is rounded to the nearest double, and an object key `"__proto__"` sets the
  object's prototype instead of adding a property.
- `Scripts.CallImplAsWritten` and `Scripts.CallImpl`: `last_rid` is unbounded. The
  source's `u32` counter would overflow after 2^32 calls, which is not modelled.
- `Scripts.CallImplAsWritten` and `Scripts.Call`: the panic on a missing entry is the
  `expect` text, `MissingEntry`. Rust appends the error's `Debug` form, which is not
  modelled.
- `JsApiMacro.QualifiedResultAsWritten`: trait bounds are not modelled. In particular
  `Script::call` needs its result type to be `DeserializeOwned`, so the expansion that
  decodes a `JsResult<T>` fails to compile, and the model cannot say so.
- `Scripts.CallImplAsWritten`: the `Rc::try_unwrap(...).expect(...)` after the take is
  not modelled. The table holds the only reference, so it cannot fail.
- `JsApiMacro.Wrap`: the panic message is the `expect` text only. Rust appends the
  error's `Debug` form, which is not modelled.
- The macro's token emission, spans and `quote_token`. A type's printed form is the
  `text` field of `Ty`, given rather than computed from proc_macro2's spacing.
- `generate_struct`, `generate_marker_trait_impl` and `Script::bind_api`. They emit
  fixed code and cannot fail.
- The forwarding of method attributes. Generated methods with more than five
  parameters, which fail to compile because `CallArgs` stops at five tuple elements.
- js-sandbox/src/lib.rs (re-exports and doc examples) and src/util.rs, whose call of
  `call_json` does not match src/script.rs. Neither is part of this model.

## Findings

| source | as written | input that shows it | evidently intended | confidence | as-written member | corrected member |
|---|---|---|---|---|---|---|
| js-sandbox-macros/src/lib.rs:154-156 | `#(#args,),*` puts a comma after each name and another between items | a method with parameters `a, b` generates `(a,,b,)`, a syntax error (`JsApiMacro.TwoParamsAsWritten`, `JsApiMacro.PackedArgsAsWritten`, `JsApiMacro.AddGeneratedAsWritten`) | `#(#args,)*`, giving `(a,b,)` | high (not executed) | JsApiMacro.PackArgsAsWritten | JsApiMacro.PackArgs |
| js-sandbox-macros/src/lib.rs:183 | the first path segment is compared with `"js_sandbox_ios::JsResult"`, which no identifier equals | `-> js_sandbox_ios::JsResult<i32>` is treated as a plain type, so the generated method asks `call` to decode a `JsResult<i32>`, which does not type-check because `JsError` is not deserializable (`JsApiMacro.QualifiedResultAsWritten`) | the crate-qualified path is recognised as `JsResult<T>` | high (not executed) | JsApiMacro.ParseReturnTypeAsWritten | JsApiMacro.ParseReturnType |
| js-sandbox/src/script.rs:146-162 | when the event loop fails after the run has called `op_return`, the error is returned and the deposited entry stays in the table with `last_rid` unchanged | `function f() { Promise.reject(new Error("x")); return 1; }` deposits 1 and then fails the event loop with the unhandled rejection; the next call, whose run deposits 2, returns 1 (`Scripts.StaleResultAsWritten`, and through `Script::call` `Scripts.StaleCallResultAsWritten`) | each call reads its own result: a failed call frees the slot it filled (`Scripts.EachCallReadsOwnResult`) | medium (not executed) | Scripts.CallImplAsWritten | Scripts.CallImpl |

=== FILE: call_args.dfy ===
/** Argument encoding (js-sandbox/src/call_args.rs): the `CallArgs` trait turns a Rust
    tuple of 0 to 5 serialisable values into the text of one JavaScript argument list.

    A tuple is modelled as the sequence of its elements, of an abstract host type `H`;
    serde_json's conversion of one element into a `JsValue` is the parameter `toValue`,
    which may fail. */
module CallArgs {
  import opened Outcomes
  import opened Json
  import opened JsErrors

  /** The trait is implemented for `()` and for tuples of one to five elements. */
  const MaxArity: nat := 5

  /** `CallArgs::into_arg_string`: every element is converted to a `JsValue` and written
      as compact JSON text, in tuple order; the texts are joined by single commas. The
      first element that cannot be converted fails the whole encoding. */
  function IntoArgString<H>(args: seq<H>, toValue: H -> Result<JsValue, JsonError>): (r: Result<string, JsError>)
    requires |args| <= MaxArity
    ensures r.Ok? <==> forall i :: 0 <= i < |args| ==> toValue(args[i]).Ok?
    ensures r.Ok? ==> ReadArgList(r.value) == Some(Traverse(args, toValue).value)
    ensures r.Err? ==> r.error.Json? && FirstFailure(args, toValue, r.error.json)
    ensures |args| == 0 ==> r == Ok("")
    ensures |args| == 1 && r.Ok? ==> r.value == Render(toValue(args[0]).value)
  {
    if |args| == 0 then Ok("")
    else
      match Traverse(args, toValue)
      case Err(e) => Err(FromJsonError(e))
      case Ok(vs) =>
        ReadJoinedArgs(vs);
        Ok(JoinTexts(vs))
  }

  /** One failing element is enough to fail the encoding, whatever the others are. */
  lemma OneFailureFailsAll<H>(args: seq<H>, toValue: H -> Result<JsValue, JsonError>, k: nat)
    requires |args| <= MaxArity
    requires k < |args| && toValue(args[k]).Err?
    ensures IntoArgString(args, toValue).Err?
    ensures IntoArgString(args, toValue).error.Json?
  {
  }
}

=== FILE: engine.dfy ===
/** The JavaScript engine, seen from the bridge.

    The engine itself (V8 behind deno_core, its event loop and op dispatch) is not
    modelled. What one run of an invocation source does is a parameter of the model, an
    `Exec`: whether the generated code reached `op_return` and whether execution or the
    event loop reported an error. `RunInvocation` states how the generated invocation
    code turns the called function's behaviour into such a run. */
module Engine {
  import opened Outcomes
  import opened Json
  import opened JsErrors

  /** What a JavaScript function handed back: a JSON value, or `undefined`. */
  datatype JsReturn = Undefined | Defined(value: JsValue)

  /** How a called JavaScript function ended. For an `async` function this is how the
      promise it returned settled. */
  datatype Settlement = Returns(result: JsReturn) | Throws(error: AnyError) | NeverSettles

  /** One run of an invocation source, as the host observes it:
      - `Deposited(v)`: ran to completion after calling `op_return(v)` once;
      - `Threw(e)`: execution or the event loop failed, and nothing was deposited;
      - `Silent`: ran to completion without calling `op_return`;
      - `DepositedThenThrew(v, e)`: called `op_return(v)`, then the event loop failed. */
  datatype Exec =
    | Deposited(value: JsValue)
    | Threw(error: AnyError)
    | Silent
    | DepositedThenThrew(value: JsValue, error: AnyError)
  {
    /** The run called `op_return` (exactly once). */
    predicate Deposits() {
      Deposited? || DepositedThenThrew?
    }

    /** The run reported an error to the host. */
    predicate Fails() {
      Threw? || DepositedThenThrew?
    }
  }

  /** `undefined` cannot be written as JSON, so the invocation code replaces it by
      `null` before handing the result to `op_return`. */
  function NullIfUndefined(r: JsReturn): (v: JsValue)
    ensures r.Defined? ==> v == r.value
    ensures r.Undefined? ==> v == Null
  {
    match r
    case Undefined => Null
    case Defined(v) => v
  }

  /** The run of an invocation source whose called function ends as `s` and after which
      the event loop reports `loopError`, if any. The result is deposited exactly when the
      function returns, and it is deposited as JSON (`null` for `undefined`). A function
      whose promise never settles deposits nothing, and the event loop then finishes. */
  function RunInvocation(s: Settlement, loopError: Option<AnyError>): (x: Exec)
    ensures x.Deposits() <==> s.Returns?
    ensures x.Deposits() ==> x.value == NullIfUndefined(s.result)
    ensures x.Fails() <==> s.Throws? || loopError.Some?
    ensures s.Throws? ==> x == Threw(s.error)
    ensures x.Silent? <==> s.NeverSettles? && loopError.None?
  {
    match s
    case Returns(r) =>
      if loopError.Some? then DepositedThenThrew(NullIfUndefined(r), loopError.value)
      else Deposited(NullIfUndefined(r))
    case Throws(e) => Threw(e)
    case NeverSettles =>
      if loopError.Some? then Threw(loopError.value) else Silent
  }
}

=== FILE: js_api_macro.dfy ===
/** The `#[js_api]` attribute macro (js-sandbox-macros/src/lib.rs).

    Applied to a trait, the macro generates a struct holding a `&mut Script` and, for
    every method of the trait, an inherent method that calls the JavaScript function of
    the same name with the method's parameters as the argument tuple. Each method is
    validated first, and the first violation becomes a compile error. The model works
    on an abstract syntax tree with the shape of syn's, and on the few tokens of the
    generated argument tuple. */
module JsApiMacro {
  import opened Outcomes
  import opened Json
  import opened JsErrors
  import opened Engine
  import opened CallArgs
  import opened Scripts

  // ---------------------------------------------------------------------------
  // Syntax, as syn 2 presents it

  /** A type: a path such as `JsResult<i32>` or `std::string::String`, or anything else
      (a reference, a tuple, a slice, ...). `text` is how the type prints. */
  datatype Ty =
    | PathType(segments: seq<Segment>, text: string)
    | OtherType(text: string)

  datatype Segment = Segment(ident: string, arguments: PathArguments)

  datatype PathArguments = NoArguments | AngleBracketed(args: seq<GenericArgument>) | Parenthesized

  /** A generic argument: a type, or something else (a lifetime, a constant, a binding). */
  datatype GenericArgument = TypeArg(ty: Ty) | OtherArg

  /** `self`, `mut self`, `&self` or `&mut self`. syn records the `mut` of `mut self`
      and of `&mut self` in the same place, `mutability`. */
  datatype Receiver = Receiver(reference: bool, mutability: bool)

  /** A parameter pattern: an identifier pattern `ref? mut? name (@ subpattern)?`, or
      any other pattern (a tuple, a struct, a wildcard, ...). */
  datatype Pat =
    | IdentPat(byRef: bool, mutability: bool, ident: string, subpat: bool)
    | OtherPat

  datatype FnArg = ReceiverArg(receiver: Receiver) | TypedArg(pat: Pat, ty: Ty)

  datatype ReturnSyntax = DefaultReturn | TypeReturn(ty: Ty)

  datatype Signature = Signature(
    constness: bool,
    asyncness: bool,
    ident: string,
    inputs: seq<FnArg>,
    output: ReturnSyntax)

  /** A trait item: a method, possibly with a default body, or any other item
      (an associated type or constant, a macro invocation). */
  datatype TraitItem = FnItem(sig: Signature, hasDefault: bool) | NonFnItem

  datatype ItemTrait = ItemTrait(ident: string, items: seq<TraitItem>)

  /** A compile error produced by the macro. */
  datatype SynError = SynError(message: string)

  const OnlyMethods := "only methods are allowed"
  const NoConst := "const functions are not supported"
  const NoAsync := "async functions are not supported"
  const NoDefault := "cannot specify an implementation of methods"
  const NoValueReceiver := "receiver must be `&mut self`; values and shared references are not supported"
  const NoAssociated := "receiver must be `&mut self`; associated methods are not supported"
  const NotBareIdent := "parameter must be a bare identifier"
  const NoByRef := "parameter must be a value; by-reference unsupported"
  const NoMutParam := "parameter must not be mutable"
  const NoSubpattern := "parameter cannot have destructured bindings"
  const UnsupportedReturn := "unsupported return type; expected T or JsResult<T>, where T: Deserializable"

  /** The crate the generated code refers to. */
  const CrateName := "js_sandbox_ios"

  // ---------------------------------------------------------------------------
  // Validation of one method

  /** `Signature::receiver`: the receiver, when the first input is one. */
  function ReceiverOf(sig: Signature): (r: Option<Receiver>)
    ensures r.Some? <==> |sig.inputs| > 0 && sig.inputs[0].ReceiverArg?
  {
    if |sig.inputs| > 0 && sig.inputs[0].ReceiverArg? then Some(sig.inputs[0].receiver) else None
  }

  /** One input of the parameter loop: receivers are skipped, and a typed parameter
      must be a bare identifier, checked for `ref`, then `mut`, then `@`. */
  function CheckParam(arg: FnArg): (r: Result<Option<string>, SynError>)
    ensures r.Ok? <==> arg.ReceiverArg? || BareIdent(arg.pat)
    ensures r.Ok? && r.value.Some? <==> arg.TypedArg? && BareIdent(arg.pat)
    ensures r.Ok? && r.value.Some? ==> r.value.value == arg.pat.ident
  {
    match arg
    case ReceiverArg(_) => Ok(None)
    case TypedArg(pat, _) =>
      match pat
      case OtherPat => Err(SynError(NotBareIdent))
      case IdentPat(byRef, mutability, ident, subpat) =>
        if byRef then Err(SynError(NoByRef))
        else if mutability then Err(SynError(NoMutParam))
        else if subpat then Err(SynError(NoSubpattern))
        else Ok(Some(ident))
  }

  /** A plain `name` pattern. */
  predicate BareIdent(p: Pat) {
    p.IdentPat? && !p.byRef && !p.mutability && !p.subpat
  }

  /** The names of the identifier parameters, in declaration order. */
  function Names(inputs: seq<FnArg>): seq<string>
    decreases |inputs|
  {
    if |inputs| == 0 then []
    else
      (if inputs[0].TypedArg? && inputs[0].pat.IdentPat? then [inputs[0].pat.ident] else [])
      + Names(inputs[1..])
  }

  function Somes(os: seq<Option<string>>): seq<string>
    decreases |os|
  {
    if |os| == 0 then []
    else (if os[0].Some? then [os[0].value] else []) + Somes(os[1..])
  }

  /** The parameter loop: the first rejected parameter is the error; otherwise the
      names of all typed parameters, in declaration order. */
  function CollectParams(inputs: seq<FnArg>): (r: Result<seq<string>, SynError>)
    ensures r.Ok? <==> forall i :: 0 <= i < |inputs| ==> CheckParam(inputs[i]).Ok?
    ensures r.Err? ==> FirstFailure(inputs, CheckParam, r.error)
    ensures r.Ok? ==> r.value == Names(inputs)
  {
    match Traverse(inputs, CheckParam)
    case Err(e) => Err(e)
    case Ok(os) =>
      CheckedNames(inputs, os);
      Ok(Somes(os))
  }

  lemma {:induction false} CheckedNames(inputs: seq<FnArg>, os: seq<Option<string>>)
    requires |os| == |inputs|
    requires forall i :: 0 <= i < |inputs| ==> CheckParam(inputs[i]) == Ok(os[i])
    ensures Somes(os) == Names(inputs)
    decreases |inputs|
  {
    if |inputs| > 0 {
      assert forall i :: 0 <= i < |inputs| - 1 ==> inputs[1..][i] == inputs[i + 1] && os[1..][i] == os[i + 1];
      CheckedNames(inputs[1..], os[1..]);
      assert CheckParam(inputs[0]) == Ok(os[0]);
    }
  }

  /** The checks of `generate_impl_methods` on one trait item, in the order the source
      makes them; on success, the names of the parameters. */
  function CheckMethod(item: TraitItem): (r: Result<seq<string>, SynError>)
    ensures r.Ok? ==> item.FnItem? && r.value == Names(item.sig.inputs)
  {
    if item.NonFnItem? then Err(SynError(OnlyMethods))
    else if item.sig.constness then Err(SynError(NoConst))
    else if item.sig.asyncness then Err(SynError(NoAsync))
    else if item.hasDefault then Err(SynError(NoDefault))
    else
      match ReceiverOf(item.sig)
      case None => Err(SynError(NoAssociated))
      case Some(rcv) =>
        if !rcv.mutability then Err(SynError(NoValueReceiver))
        else CollectParams(item.sig.inputs)
  }

  // ---------------------------------------------------------------------------
  // Return types

  /** The shape of the result: nothing, a plain type `T` that a failure turns into a
      panic, or `JsResult<T>` handed to the caller. */
  datatype ReturnType = Unit | Direct(ty: Ty) | ResultWrap(ty: Ty)

  /** What the generated method does with the call's `JsResult`. */
  datatype Transform = PassThrough | ExpectOrPanic(message: string)

  /** The first type argument of a segment written `Name<T, ...>`. */
  function FirstTypeArg(seg: Segment): Option<Ty> {
    if seg.arguments.AngleBracketed? && |seg.arguments.args| > 0 && seg.arguments.args[0].TypeArg?
    then Some(seg.arguments.args[0].ty)
    else None
  }

  /** The second identifier `parse_return_type` compares with. */
  const QualifiedResultName := "js_sandbox_ios::JsResult"

  /** The identifiers `parse_return_type` as written takes for `JsResult`. */
  predicate ResultIdentAsWritten(id: string) {
    id == "JsResult" || id == QualifiedResultName
  }

  /** `parse_return_type` as written: it looks at the first path segment only, and
      compares that identifier with `"JsResult"` and with `"js_sandbox_ios::JsResult"`. */
  function ParseReturnTypeAsWritten(out: ReturnSyntax): (r: Result<ReturnType, SynError>)
    ensures out.DefaultReturn? <==> r == Ok(Unit)
    ensures r.Ok? && r.value.Direct? <==>
      out.TypeReturn? && out.ty.PathType? && |out.ty.segments| > 0 &&
      !ResultIdentAsWritten(out.ty.segments[0].ident)
    ensures r.Ok? && r.value.Direct? ==> r.value.ty == out.ty
    ensures r.Ok? && r.value.ResultWrap? <==>
      out.TypeReturn? && out.ty.PathType? && |out.ty.segments| > 0 &&
      ResultIdentAsWritten(out.ty.segments[0].ident) && FirstTypeArg(out.ty.segments[0]).Some?
    ensures r.Ok? && r.value.ResultWrap? ==> FirstTypeArg(out.ty.segments[0]) == Some(r.value.ty)
    ensures r.Err? <==>
      out.TypeReturn? &&
      (out.ty.OtherType? || |out.ty.segments| == 0 ||
       (ResultIdentAsWritten(out.ty.segments[0].ident) && FirstTypeArg(out.ty.segments[0]).None?))
    ensures r.Err? ==> r.error == SynError(UnsupportedReturn)
  {
    match out
    case DefaultReturn => Ok(Unit)
    case TypeReturn(ty) =>
      if ty.OtherType? || |ty.segments| == 0 then Err(SynError(UnsupportedReturn))
      else
        var seg := ty.segments[0];
        if seg.ident == "JsResult" || seg.ident == QualifiedResultName then
          if FirstTypeArg(seg).Some? then Ok(ResultWrap(FirstTypeArg(seg).value))
          else Err(SynError(UnsupportedReturn))
        else Ok(Direct(ty))
  }

  /** The segment that names the result type: the second of `js_sandbox_ios::X`, the
      first of any other path. */
  function ResultSegment(ty: Ty): (seg: Segment)
    requires ty.PathType? && |ty.segments| > 0
    ensures seg in ty.segments
  {
    if |ty.segments| == 2 && ty.segments[0] == Segment(CrateName, NoArguments) then ty.segments[1]
    else ty.segments[0]
  }

  /** `parse_return_type` as evidently intended: `JsResult<T>` written with or without
      the crate path is a `JsResult`. */
  function ParseReturnType(out: ReturnSyntax): (r: Result<ReturnType, SynError>)
    ensures out.DefaultReturn? <==> r == Ok(Unit)
    ensures r.Ok? && r.value.Direct? ==>
      out.TypeReturn? && r.value.ty == out.ty && out.ty.PathType? && |out.ty.segments| > 0 &&
      ResultSegment(out.ty).ident != "JsResult"
    ensures r.Ok? && r.value.ResultWrap? ==>
      out.TypeReturn? && out.ty.PathType? && |out.ty.segments| > 0 &&
      ResultSegment(out.ty).ident == "JsResult" && FirstTypeArg(ResultSegment(out.ty)) == Some(r.value.ty)
    ensures r.Err? <==>
      out.TypeReturn? &&
      (out.ty.OtherType? || |out.ty.segments| == 0 ||
       (ResultSegment(out.ty).ident == "JsResult" && FirstTypeArg(ResultSegment(out.ty)).None?))
    ensures r.Err? ==> r.error == SynError(UnsupportedReturn)
  {
    match out
    case DefaultReturn => Ok(Unit)
    case TypeReturn(ty) =>
      if ty.OtherType? || |ty.segments| == 0 then Err(SynError(UnsupportedReturn))
      else
        var seg := ResultSegment(ty);
        if seg.ident == "JsResult" then
          if FirstTypeArg(seg).Some? then Ok(ResultWrap(FirstTypeArg(seg).value))
          else Err(SynError(UnsupportedReturn))
        else Ok(Direct(ty))
  }

  /** A return type that the two versions of `parse_return_type` read alike: none, a
      type other than a path, or a path whose first segment is neither the crate name
      nor the qualified identifier. */
  predicate PlainReturn(out: ReturnSyntax) {
    out.DefaultReturn? || out.ty.OtherType? || |out.ty.segments| == 0 ||
    (out.ty.segments[0].ident != CrateName && out.ty.segments[0].ident != QualifiedResultName)
  }

  /** The two versions classify every plain return type alike. */
  lemma ParseReturnTypeAgrees(out: ReturnSyntax)
    ensures PlainReturn(out) ==> ParseReturnTypeAsWritten(out) == ParseReturnType(out)
  {
  }

  /** The transform chosen for each shape. */
  function TransformFor(rt: ReturnType): (t: Transform)
    ensures t.PassThrough? <==> rt.ResultWrap?
  {
    match rt
    case Direct(ty) => ExpectOrPanic("cannot convert to type `" + ty.text + "`")
    case ResultWrap(_) => PassThrough
    case Unit => ExpectOrPanic("JS function call failed")
  }

  // ---------------------------------------------------------------------------
  // The argument tuple

  datatype Token = Ident(name: string) | Comma | LParen | RParen

  /** The tuple `( #(#args,),* )` as written: each name is followed by a comma, and the
      repetition puts a further comma between consecutive items. */
  function PackArgsAsWritten(names: seq<string>): (ts: seq<Token>)
    ensures |ts| == if |names| == 0 then 2 else 3 * |names| + 1
  {
    [LParen] + ItemsAsWritten(names) + [RParen]
  }

  function ItemsAsWritten(names: seq<string>): (ts: seq<Token>)
    ensures |ts| == if |names| == 0 then 0 else 3 * |names| - 1
    decreases |names|
  {
    if |names| == 0 then []
    else if |names| == 1 then [Ident(names[0]), Comma]
    else [Ident(names[0]), Comma, Comma] + ItemsAsWritten(names[1..])
  }

  /** The tuple `( #(#args,)* )`: every name followed by one comma. */
  function PackArgs(names: seq<string>): (ts: seq<Token>)
    ensures |ts| == 2 * |names| + 2
  {
    [LParen] + Items(names) + [RParen]
  }

  function Items(names: seq<string>): (ts: seq<Token>)
    ensures |ts| == 2 * |names|
    decreases |names|
  {
    if |names| == 0 then [] else [Ident(names[0]), Comma] + Items(names[1..])
  }

  /** Rust's grammar for a tuple expression of identifiers: `()`, `(a,)`, `(a, b)`,
      `(a, b,)`, ... A single name without a comma is a parenthesised expression and
      not a tuple; an empty item between two commas is a syntax error. */
  function ParseTuple(ts: seq<Token>): Option<seq<string>> {
    if |ts| < 2 || ts[0] != LParen then None
    else if ts[1] == RParen then (if |ts| == 2 then Some([]) else None)
    else
      match ParseElements(ts[1..])
      case None => None
      case Some((names, trailing)) => if |names| >= 2 || trailing then Some(names) else None
  }

  /** Reads `a (, b)* ,? )` to the end of the tokens; tells whether a trailing comma
      was written. */
  function ParseElements(ts: seq<Token>): Option<(seq<string>, bool)>
    decreases |ts|
  {
    if |ts| < 2 || !ts[0].Ident? then None
    else if ts[1] == RParen then (if |ts| == 2 then Some(([ts[0].name], false)) else None)
    else if ts[1] != Comma then None
    else if |ts| == 3 && ts[2] == RParen then Some(([ts[0].name], true))
    else
      match ParseElements(ts[2..])
      case None => None
      case Some((names, trailing)) => Some(([ts[0].name] + names, trailing))
  }

  lemma {:induction false} ReadItems(names: seq<string>)
    requires |names| > 0
    ensures ParseElements(Items(names) + [RParen]) == Some((names, true))
    decreases |names|
  {
    var ts := Items(names) + [RParen];
    if |names| == 1 {
      assert ts == [Ident(names[0]), Comma, RParen];
      assert [names[0]] == names;
    } else {
      ReadItems(names[1..]);
      assert ts == [Ident(names[0]), Comma] + (Items(names[1..]) + [RParen]);
      assert ts[2..] == Items(names[1..]) + [RParen];
      assert [names[0]] + names[1..] == names;
    }
  }

  /** The corrected tuple is read back as the parameter names, in order. */
  lemma PackedArgsParse(names: seq<string>)
    ensures ParseTuple(PackArgs(names)) == Some(names)
  {
    if |names| > 0 {
      ReadItems(names);
      assert PackArgs(names)[1..] == Items(names) + [RParen];
    }
  }

  /** As written, the tuple is valid Rust for zero or one parameter, where it equals the
      corrected tuple, and a syntax error for two or more. */
  lemma PackedArgsAsWritten(names: seq<string>)
    ensures |names| <= 1 ==> PackArgsAsWritten(names) == PackArgs(names)
    ensures ParseTuple(PackArgsAsWritten(names)).Some? <==> |names| <= 1
  {
    if |names| == 1 {
      assert Items(names[1..]) == [];
      PackedArgsParse(names);
    } else if |names| == 0 {
      PackedArgsParse(names);
    } else {
      var ts := PackArgsAsWritten(names);
      var inner := ts[1..];
      assert inner == [Ident(names[0]), Comma, Comma] + ItemsAsWritten(names[1..]) + [RParen];
      assert inner[2..][0] == Comma;
      assert ParseElements(inner[2..]) == None;
      assert ParseElements(inner) == None;
    }
  }

  /** The two-parameter case: `(a, , b,)`. */
  lemma TwoParamsAsWritten()
    ensures PackArgsAsWritten(["a", "b"]) == [LParen, Ident("a"), Comma, Comma, Ident("b"), Comma, RParen]
    ensures ParseTuple(PackArgsAsWritten(["a", "b"])) == None
  {
    PackedArgsAsWritten(["a", "b"]);
  }

  // ---------------------------------------------------------------------------
  // Generation

  /** One generated method: it calls the JavaScript function named like the method,
      with the argument tuple `packed` of the parameters `params`, and applies
      `transform` to the result. */
  datatype GeneratedMethod = GeneratedMethod(
    fnName: string,
    params: seq<string>,
    packed: seq<Token>,
    returnType: ReturnType,
    transform: Transform)

  /** The code generated for one trait item, or the first validation error. */
  function GenerateMethod(item: TraitItem): (r: Result<GeneratedMethod, SynError>)
    ensures r.Ok? ==> item.FnItem? && r.value.fnName == item.sig.ident
    ensures r.Ok? ==> r.value.params == Names(item.sig.inputs)
    ensures r.Ok? ==> ParseTuple(r.value.packed) == Some(r.value.params)
    ensures r.Ok? ==> Ok(r.value.returnType) == ParseReturnType(item.sig.output)
    ensures r.Ok? ==> r.value.transform == TransformFor(r.value.returnType)
  {
    match CheckMethod(item)
    case Err(e) => Err(e)
    case Ok(names) =>
      match ParseReturnType(item.sig.output)
      case Err(e) => Err(e)
      case Ok(rt) =>
        PackedArgsParse(names);
        Ok(GeneratedMethod(item.sig.ident, names, PackArgs(names), rt, TransformFor(rt)))
  }

  /** The conditions under which a method is accepted, all at once. */
  lemma AcceptedExactly(item: TraitItem)
    ensures GenerateMethod(item).Ok? <==>
      item.FnItem? && !item.sig.constness && !item.sig.asyncness && !item.hasDefault &&
      ReceiverOf(item.sig).Some? && ReceiverOf(item.sig).value.mutability &&
      (forall i :: 0 <= i < |item.sig.inputs| ==> CheckParam(item.sig.inputs[i]).Ok?) &&
      ParseReturnType(item.sig.output).Ok?
  {
  }

  /** Which error a rejected method gets: the checks are made in this order, and the
      first that fails decides. */
  lemma RejectionOrder(item: TraitItem)
    ensures item.NonFnItem? ==> GenerateMethod(item) == Err(SynError(OnlyMethods))
    ensures item.FnItem? && item.sig.constness ==> GenerateMethod(item) == Err(SynError(NoConst))
    ensures item.FnItem? && !item.sig.constness && item.sig.asyncness ==>
      GenerateMethod(item) == Err(SynError(NoAsync))
    ensures item.FnItem? && !item.sig.constness && !item.sig.asyncness && item.hasDefault ==>
      GenerateMethod(item) == Err(SynError(NoDefault))
    ensures item.FnItem? && !item.sig.constness && !item.sig.asyncness && !item.hasDefault ==>
      (ReceiverOf(item.sig).None? ==> GenerateMethod(item) == Err(SynError(NoAssociated))) &&
      (ReceiverOf(item.sig).Some? && !ReceiverOf(item.sig).value.mutability ==>
         GenerateMethod(item) == Err(SynError(NoValueReceiver)))
  {
  }

  /** A parameter error is the one of the first rejected parameter, and it is reported
      before any problem with the return type. */
  lemma ParamErrorFirst(item: TraitItem, k: nat)
    requires item.FnItem? && !item.sig.constness && !item.sig.asyncness && !item.hasDefault
    requires ReceiverOf(item.sig).Some? && ReceiverOf(item.sig).value.mutability
    requires k < |item.sig.inputs| && CheckParam(item.sig.inputs[k]).Err?
    requires forall j :: 0 <= j < k ==> CheckParam(item.sig.inputs[j]).Ok?
    ensures GenerateMethod(item) == Err(CheckParam(item.sig.inputs[k]).error)
  {
    var inputs := item.sig.inputs;
    var e := CollectParams(inputs).error;
    var i :| 0 <= i < |inputs| && FirstFailureAt(inputs, CheckParam, e, i);
    assert i == k;
  }

  /** Only `&mut self` and `mut self` pass the receiver check, since the check reads the
      `mut` only; `&self` and `self` are rejected, and so is a method without receiver. */
  lemma ReceiverKinds(rcv: Receiver, rest: seq<FnArg>)
    ensures
      var m := FnItem(Signature(false, false, "f", [ReceiverArg(rcv)] + rest, DefaultReturn), false);
      (GenerateMethod(m) == Err(SynError(NoValueReceiver)) <==> !rcv.mutability)
    ensures
      var m := FnItem(Signature(false, false, "f", [Param("a", I32)] + rest, DefaultReturn), false);
      GenerateMethod(m) == Err(SynError(NoAssociated))
  {
    var m := FnItem(Signature(false, false, "f", [ReceiverArg(rcv)] + rest, DefaultReturn), false);
    if rcv.mutability && GenerateMethod(m).Err? {
      var inputs := m.sig.inputs;
      var e := CollectParams(inputs).error;
      var i :| 0 <= i < |inputs| && FirstFailureAt(inputs, CheckParam, e, i);
      assert e != SynError(NoValueReceiver);
    }
  }

  /** `generate_impl_methods`: the methods for every item, in order, or the error of the
      first rejected item, which `js_api` turns into the compile error. */
  function GenerateImplMethods(item: ItemTrait): (r: Result<seq<GeneratedMethod>, SynError>)
    ensures r.Ok? <==> forall i :: 0 <= i < |item.items| ==> GenerateMethod(item.items[i]).Ok?
    ensures r.Ok? ==> |r.value| == |item.items|
    ensures r.Ok? ==> forall i :: 0 <= i < |item.items| ==>
      r.value[i] == GenerateMethod(item.items[i]).value && r.value[i].fnName == item.items[i].sig.ident
    ensures r.Err? ==> FirstFailure(item.items, GenerateMethod, r.error)
  {
    Traverse(item.items, GenerateMethod)
  }

  /** The code `generate_impl_methods` generates for one trait item as written: the
      tuple `( #(#args,),* )` and the return type read by `parse_return_type` as
      written. With two or more parameters the tuple is not valid Rust. */
  function GenerateMethodAsWritten(item: TraitItem): (r: Result<GeneratedMethod, SynError>)
    ensures r.Ok? <==> CheckMethod(item).Ok? && ParseReturnTypeAsWritten(item.sig.output).Ok?
    ensures r.Err? ==> r.error == if CheckMethod(item).Err? then CheckMethod(item).error
                                  else ParseReturnTypeAsWritten(item.sig.output).error
    ensures r.Ok? ==> item.FnItem? && r.value.fnName == item.sig.ident
    ensures r.Ok? ==> r.value.params == Names(item.sig.inputs)
    ensures r.Ok? ==> (ParseTuple(r.value.packed) == Some(r.value.params) <==> |r.value.params| <= 1)
    ensures r.Ok? ==> (ParseTuple(r.value.packed).None? <==> |r.value.params| >= 2)
    ensures r.Ok? ==> Ok(r.value.returnType) == ParseReturnTypeAsWritten(item.sig.output)
    ensures r.Ok? ==> r.value.transform == TransformFor(r.value.returnType)
  {
    match CheckMethod(item)
    case Err(e) => Err(e)
    case Ok(names) =>
      match ParseReturnTypeAsWritten(item.sig.output)
      case Err(e) => Err(e)
      case Ok(rt) =>
        PackedArgsAsWritten(names);
        PackedArgsParse(names);
        Ok(GeneratedMethod(item.sig.ident, names, PackArgsAsWritten(names), rt, TransformFor(rt)))
  }

  /** A trait item on which the macro as written and the corrected macro agree: not a
      method, or a method with at most one named parameter and a plain return type. */
  predicate AgreesOn(item: TraitItem) {
    item.NonFnItem? || (|Names(item.sig.inputs)| <= 1 && PlainReturn(item.sig.output))
  }

  /** The conditions under which the macro as written accepts a method. */
  lemma AcceptedExactlyAsWritten(item: TraitItem)
    ensures GenerateMethodAsWritten(item).Ok? <==>
      item.FnItem? && !item.sig.constness && !item.sig.asyncness && !item.hasDefault &&
      ReceiverOf(item.sig).Some? && ReceiverOf(item.sig).value.mutability &&
      (forall i :: 0 <= i < |item.sig.inputs| ==> CheckParam(item.sig.inputs[i]).Ok?) &&
      ParseReturnTypeAsWritten(item.sig.output).Ok?
  {
  }

  /** On the items where they agree, the macro as written generates what the corrected
      macro does. */
  lemma GenerateMethodAgrees(item: TraitItem)
    ensures AgreesOn(item) ==> GenerateMethodAsWritten(item) == GenerateMethod(item)
  {
    if AgreesOn(item) && item.FnItem? {
      ParseReturnTypeAgrees(item.sig.output);
      if CheckMethod(item).Ok? {
        PackedArgsAsWritten(CheckMethod(item).value);
      }
    }
  }

  /** `generate_impl_methods` as written: the methods for every item, in order, or the
      error of the first rejected item. */
  function GenerateImplMethodsAsWritten(item: ItemTrait): (r: Result<seq<GeneratedMethod>, SynError>)
    ensures r.Ok? <==> forall i :: 0 <= i < |item.items| ==> GenerateMethodAsWritten(item.items[i]).Ok?
    ensures r.Ok? ==> |r.value| == |item.items|
    ensures r.Ok? ==> forall i :: 0 <= i < |item.items| ==>
      r.value[i] == GenerateMethodAsWritten(item.items[i]).value && r.value[i].fnName == item.items[i].sig.ident
    ensures r.Err? ==> FirstFailure(item.items, GenerateMethodAsWritten, r.error)
  {
    Traverse(item.items, GenerateMethodAsWritten)
  }

  /** A trait whose every item is one where the two versions agree is expanded alike. */
  lemma GenerateImplMethodsAgree(item: ItemTrait)
    requires forall i :: 0 <= i < |item.items| ==> AgreesOn(item.items[i])
    ensures GenerateImplMethodsAsWritten(item) == GenerateImplMethods(item)
  {
    forall i | 0 <= i < |item.items|
      ensures GenerateMethodAsWritten(item.items[i]) == GenerateMethod(item.items[i])
    {
      GenerateMethodAgrees(item.items[i]);
    }
    TraverseAgree(item.items, GenerateMethodAsWritten, GenerateMethod);
  }

  // ---------------------------------------------------------------------------
  // Running a generated method

  /** The transform applied to the call's result: passed on, or a failure turned into a
      panic with the given message. */
  function Wrap<R>(t: Transform, result: Outcome<R, JsError>): (o: Outcome<R, JsError>)
    ensures t.PassThrough? ==> o == result
    ensures t.ExpectOrPanic? ==> !o.Failed?
    ensures t.ExpectOrPanic? && result.Failed? ==> o == Panic(t.message)
    ensures !result.Failed? ==> o == result
  {
    match t
    case PassThrough => result
    case ExpectOrPanic(message) => if result.Failed? then Panic(message) else result
  }

  /** The body of a generated method: `self.script.call(fn_name, args)` on the
      parameter values, followed by the transform. Only a method whose packed tuple
      parses as the tuple of its parameters compiles, so only such a method runs. */
  function Invoke<H, R>(m: GeneratedMethod, s: Script, args: seq<H>, toValue: H -> Result<JsValue, JsonError>,
                        x: Exec, fromValue: JsValue -> Result<R, JsonError>): (r: (Script, Outcome<R, JsError>))
    requires ParseTuple(m.packed) == Some(m.params)
    requires |args| == |m.params| <= MaxArity
    ensures r.0 == Call(s, m.fnName, args, toValue, x, fromValue).0
    ensures r.1 == Wrap(m.transform, Call(s, m.fnName, args, toValue, x, fromValue).1)
    ensures m.transform.PassThrough? ==> r.1 == Call(s, m.fnName, args, toValue, x, fromValue).1
    ensures m.transform.ExpectOrPanic? ==> !r.1.Failed?
    ensures m.transform.ExpectOrPanic? && Call(s, m.fnName, args, toValue, x, fromValue).1.Failed? ==>
      r.1 == Panic(m.transform.message)
    ensures !Call(s, m.fnName, args, toValue, x, fromValue).1.Failed? ==>
      r.1 == Call(s, m.fnName, args, toValue, x, fromValue).1
  {
    var (s', o) := Call(s, m.fnName, args, toValue, x, fromValue);
    (s', Wrap(m.transform, o))
  }

  /** What each shape makes of a failed call: a `JsResult` method returns the error,
      the other two panic with their message. */
  lemma FailureByShape<R>(item: TraitItem, result: Outcome<R, JsError>)
    requires GenerateMethod(item).Ok? && result.Failed?
    ensures
      var m := GenerateMethod(item).value;
      match m.returnType
      case ResultWrap(_) => Wrap(m.transform, result) == result
      case Direct(ty) => Wrap(m.transform, result) == Panic("cannot convert to type `" + ty.text + "`")
      case Unit => Wrap(m.transform, result) == Panic("JS function call failed")
  {
  }

  // ---------------------------------------------------------------------------
  // The crate-qualified `JsResult`

  predicate IdentChar(c: char) {
    'a' <= c <= 'z' || 'A' <= c <= 'Z' || '0' <= c <= '9' || c == '_'
  }

  /** A Rust identifier: letters, digits and underscores. */
  predicate IsIdent(s: string) {
    |s| > 0 && forall i :: 0 <= i < |s| ==> IdentChar(s[i])
  }

  /** A path segment is an identifier, so it never equals a text containing `::`. */
  lemma QualifiedNameNeverAnIdent(s: string)
    requires IsIdent(s)
    ensures s != "js_sandbox_ios::JsResult"
  {
    var qualified := "js_sandbox_ios::JsResult";
    assert !IdentChar(qualified[14]);
  }

  function QualifiedJsResult(t: Ty): Ty {
    PathType([Segment(CrateName, NoArguments), Segment("JsResult", AngleBracketed([TypeArg(t)]))],
             "js_sandbox_ios :: JsResult < " + t.text + " >")
  }

  /** As written, `js_sandbox_ios::JsResult<T>` is a plain type: the generated method
      asks `call` to decode the whole `JsResult<T>` and wraps it in the `expect` of a
      plain type, instead of handing the `JsResult<T>` of `call` on. Decoding into a
      `JsResult<T>` needs `JsError: Deserialize`, which the crate does not provide, so
      this expansion does not type-check; trait bounds are not part of the model. */
  lemma QualifiedResultAsWritten(t: Ty)
    ensures ParseReturnTypeAsWritten(TypeReturn(QualifiedJsResult(t))) == Ok(Direct(QualifiedJsResult(t)))
    ensures TransformFor(Direct(QualifiedJsResult(t)))
         == ExpectOrPanic("cannot convert to type `" + QualifiedJsResult(t).text + "`")
    ensures ParseReturnTypeAsWritten(TypeReturn(QualifiedJsResult(t))) != Ok(ResultWrap(t))
  {
    assert QualifiedJsResult(t).segments[0].ident == CrateName;
  }

  /** As intended, `js_sandbox_ios::JsResult<T>` and `JsResult<T>` are the same shape
      and pass errors on. */
  lemma QualifiedResultCorrected(t: Ty, e: JsError)
    ensures ParseReturnType(TypeReturn(QualifiedJsResult(t))) == Ok(ResultWrap(t))
    ensures ParseReturnType(TypeReturn(PathType([Segment("JsResult", AngleBracketed([TypeArg(t)]))], "JsResult < " + t.text + " >")))
         == Ok(ResultWrap(t))
    ensures Wrap<int>(TransformFor(ResultWrap(t)), Failed(e)) == Failed(e)
  {
  }

  // ---------------------------------------------------------------------------
  // The traits of the tests

  const I32 := PathType([Segment("i32", NoArguments)], "i32")
  const StringTy := PathType([Segment("String", NoArguments)], "String")
  const StrRef := OtherType("& str")
  const MutSelf := ReceiverArg(Receiver(true, true))

  function Param(name: string, ty: Ty): FnArg {
    TypedArg(IdentPat(false, false, name, false), ty)
  }

  lemma NamesCons(a: FnArg, rest: seq<FnArg>)
    ensures Names([a] + rest) == (if a.TypedArg? && a.pat.IdentPat? then [a.pat.ident] else []) + Names(rest)
  {
    assert ([a] + rest)[1..] == rest;
  }

  /** `trait TripleApi { fn triple(&mut self, a: i32) -> JsResult<i32>; }` */
  const TripleApi := ItemTrait("TripleApi", [
    FnItem(Signature(false, false, "triple", [MutSelf, Param("a", I32)],
      TypeReturn(PathType([Segment("JsResult", AngleBracketed([TypeArg(I32)]))], "JsResult < i32 >"))), false)])

  const TripleMethod := GeneratedMethod("triple", ["a"], PackArgs(["a"]), ResultWrap(I32), PassThrough)

  /** The macro turns `triple` into a call of the JavaScript `triple` with the tuple
      `(a,)`, whose `JsResult<i32>` it returns unchanged. */
  lemma TripleGenerated()
    ensures GenerateImplMethods(TripleApi) == Ok([TripleMethod])
    ensures GenerateImplMethodsAsWritten(TripleApi) == Ok([TripleMethod])
  {
    var item := TripleApi.items[0];
    var inputs := item.sig.inputs;
    assert inputs == [MutSelf] + ([Param("a", I32)] + []);
    NamesCons(MutSelf, [Param("a", I32)] + []);
    NamesCons(Param("a", I32), []);
    assert Names(inputs) == ["a"];
    assert CheckParam(inputs[0]).Ok? && CheckParam(inputs[1]).Ok?;
    assert CollectParams(inputs) == Ok(["a"]);
    assert CheckMethod(item) == Ok(["a"]);
    assert ParseReturnType(item.sig.output) == Ok(ResultWrap(I32));
    assert GenerateMethod(item) == Ok(TripleMethod);
    var r := GenerateImplMethods(TripleApi);
    assert r.Ok? && |r.value| == 1 && r.value[0] == TripleMethod;
    assert r.value == [TripleMethod];
    GenerateImplMethodsAgree(TripleApi);
  }

  /** `triple(5)` calls `triple` with the argument list `5`; when that run deposits 15,
      the method returns `Ok(15)`. */
  lemma TripleReturns15(src: string)
    ensures
      var script := FromString(src, None).value;
      var toValue := (n: int) => Ok(Number(n));
      var fromValue := (v: JsValue) => if v.Number? then Ok(v.n) else Err(JsonError("invalid type"));
      IntoArgString([5], toValue) == Ok("5") &&
      Invoke(TripleMethod, script, [5], toValue, Deposited(Number(15)), fromValue).1 == Done(15)
  {
    assert Render(Number(5)) == "5";
  }

  /** `trait SaveLoadApi { fn save(&mut self, s: &str); fn load(&mut self) -> String; }` */
  const SaveLoadApi := ItemTrait("SaveLoadApi", [
    FnItem(Signature(false, false, "save", [MutSelf, Param("s", StrRef)], DefaultReturn), false),
    FnItem(Signature(false, false, "load", [MutSelf], TypeReturn(StringTy)), false)])

  const SaveMethod := GeneratedMethod("save", ["s"], PackArgs(["s"]), Unit, ExpectOrPanic("JS function call failed"))
  const LoadMethod := GeneratedMethod("load", [], PackArgs([]), Direct(StringTy), ExpectOrPanic("cannot convert to type `String`"))

  lemma SaveGenerated()
    ensures GenerateMethod(SaveLoadApi.items[0]) == Ok(SaveMethod)
    ensures AgreesOn(SaveLoadApi.items[0])
  {
    var item := SaveLoadApi.items[0];
    var inputs := item.sig.inputs;
    assert inputs == [MutSelf] + ([Param("s", StrRef)] + []);
    NamesCons(MutSelf, [Param("s", StrRef)] + []);
    NamesCons(Param("s", StrRef), []);
    assert Names(inputs) == ["s"];
    assert CheckParam(inputs[0]).Ok? && CheckParam(inputs[1]).Ok?;
    assert CollectParams(inputs) == Ok(["s"]);
    assert CheckMethod(item) == Ok(["s"]);
  }

  lemma LoadGenerated()
    ensures GenerateMethod(SaveLoadApi.items[1]) == Ok(LoadMethod)
    ensures AgreesOn(SaveLoadApi.items[1])
  {
    var item := SaveLoadApi.items[1];
    var inputs := item.sig.inputs;
    assert inputs == [MutSelf] + [];
    NamesCons(MutSelf, []);
    assert Names(inputs) == [];
    assert CheckParam(inputs[0]).Ok?;
    assert CollectParams(inputs) == Ok([]);
    assert CheckMethod(item) == Ok([]);
    assert ParseReturnType(item.sig.output) == Ok(Direct(StringTy));
    assert "cannot convert to type `" + StringTy.text + "`" == "cannot convert to type `String`";
    assert TransformFor(Direct(StringTy)) == LoadMethod.transform;
  }

  /** `save` has no result and `load` a plain type, so both panic on failure. */
  lemma SaveLoadGenerated()
    ensures GenerateImplMethods(SaveLoadApi) == Ok([SaveMethod, LoadMethod])
    ensures GenerateImplMethodsAsWritten(SaveLoadApi) == Ok([SaveMethod, LoadMethod])
  {
    SaveGenerated();
    LoadGenerated();
    var r := GenerateImplMethods(SaveLoadApi);
    assert r.Ok? && |r.value| == 2 && r.value[0] == SaveMethod && r.value[1] == LoadMethod;
    assert r.value == [SaveMethod, LoadMethod];
    GenerateImplMethodsAgree(SaveLoadApi);
  }

  /** `fn add(&mut self, a: i32, b: i32) -> i32`: the macro as written accepts it and
      packs `(a,,b,)`, which is not a tuple; the corrected macro packs `(a,b,)`. */
  lemma AddGeneratedAsWritten()
    ensures
      var item := FnItem(Signature(false, false, "add", [MutSelf, Param("a", I32), Param("b", I32)], TypeReturn(I32)), false);
      GenerateMethodAsWritten(item).Ok? &&
      ParseTuple(GenerateMethodAsWritten(item).value.packed) == None &&
      GenerateMethod(item).Ok? &&
      ParseTuple(GenerateMethod(item).value.packed) == Some(["a", "b"])
  {
    var item := FnItem(Signature(false, false, "add", [MutSelf, Param("a", I32), Param("b", I32)], TypeReturn(I32)), false);
    var inputs := item.sig.inputs;
    assert inputs == [MutSelf] + ([Param("a", I32)] + ([Param("b", I32)] + []));
    NamesCons(MutSelf, [Param("a", I32)] + ([Param("b", I32)] + []));
    NamesCons(Param("a", I32), [Param("b", I32)] + []);
    NamesCons(Param("b", I32), []);
    assert Names(inputs) == ["a", "b"];
    assert CheckParam(inputs[0]).Ok? && CheckParam(inputs[1]).Ok? && CheckParam(inputs[2]).Ok?;
    assert CheckMethod(item) == Ok(["a", "b"]);
  }
}

=== FILE: js_error.dfy ===
/** The error taxonomy of the bridge (js-sandbox/src/js_error.rs).

    The crate has two error types: `AnyError`, the engine's opaque runtime error, and
    `JsError`, a sum of a serde_json error and a runtime error. The operations of the
    crate do not agree on which of the two they return, so the model uses `JsError`
    everywhere and lifts runtime errors with `FromAnyError`. Only the text of an error
    is observable, so both leaf errors are modelled by their message. */
module JsErrors {

  /** `deno_core::error::AnyError`: an error raised by the engine (syntax error,
      uncaught exception, terminated execution). */
  datatype AnyError = AnyError(message: string)

  /** `serde_json::Error`: a value could not be converted to or from JSON. */
  datatype JsonError = JsonError(message: string)

  /** `JsError`, with exactly the two variants of the source. */
  datatype JsError = Json(json: JsonError) | Runtime(runtime: AnyError) {

    /** `impl Display for JsError`: writes the wrapped error and nothing else. */
    function Display(): (text: string)
      ensures Json? ==> text == json.message
      ensures Runtime? ==> text == runtime.message
    {
      match this
      case Json(e) => e.message
      case Runtime(e) => e.message
    }
  }

  /** `impl From<AnyError> for JsError`. */
  function FromAnyError(e: AnyError): (r: JsError)
    ensures r.Runtime? && r.runtime == e
  {
    Runtime(e)
  }

  /** `impl From<serde_json::Error> for JsError`. */
  function FromJsonError(e: JsonError): (r: JsError)
    ensures r.Json? && r.json == e
  {
    Json(e)
  }

  /** Converting and then displaying shows the original error's text. */
  lemma DisplayOfConverted(a: AnyError, j: JsonError)
    ensures FromAnyError(a).Display() == a.message
    ensures FromJsonError(j).Display() == j.message
  {
  }

  /** The two conversions never meet, and each keeps the error it was given. */
  lemma ConversionsDistinct(a: AnyError, a': AnyError, j: JsonError, j': JsonError)
    ensures FromAnyError(a) != FromJsonError(j)
    ensures FromAnyError(a) == FromAnyError(a') <==> a == a'
    ensures FromJsonError(j) == FromJsonError(j') <==> j == j'
  {
  }

  /** Every `JsError` is the conversion of exactly one of the two error kinds. */
  lemma EveryErrorConverted(e: JsError)
    ensures e.Json? != e.Runtime?
    ensures e.Runtime? ==> e == FromAnyError(e.runtime)
    ensures e.Json? ==> e == FromJsonError(e.json)
  {
  }
}

=== FILE: json.dfy ===
/** The JSON values that cross the bridge (`JsValue`, an alias of serde_json's `Value`),
    their compact text form (what `Value::to_string` writes), and a reader for that text.

    The reader stands for the JavaScript side: it is what the engine's parser makes of a
    JSON text placed in argument position. The round-trip lemmas below show that the text
    the host writes is read back as exactly the value it came from. */
module Json {
  import opened Outcomes

  /** Numbers are integers: floating-point numbers are not part of this model. */
  datatype JsValue =
    | Null
    | Bool(b: bool)
    | Number(n: int)
    | String(s: string)
    | Array(items: seq<JsValue>)
    | Object(members: seq<Member>)

  /** One key/value pair of an object, in the order the map yields them. */
  datatype Member = Member(key: string, value: JsValue)

  predicate IsDigit(c: char) {
    '0' <= c <= '9'
  }

  predicate AllDigits(s: string) {
    forall i :: 0 <= i < |s| ==> IsDigit(s[i])
  }

  function DigitChar(d: nat): (c: char)
    requires d < 10
    ensures IsDigit(c)
  {
    ('0' as int + d) as char
  }

  function DigitValue(c: char): (d: nat)
    requires IsDigit(c)
    ensures d < 10 && DigitChar(d) == c
  {
    c as int - '0' as int
  }

  function HexDigit(d: nat): char
    requires d < 16
  {
    "0123456789abcdef"[d]
  }

  function HexValue(c: char): Option<nat> {
    if IsDigit(c) then Some(DigitValue(c))
    else if 'a' <= c <= 'f' then Some(c as int - 'a' as int + 10)
    else if 'A' <= c <= 'F' then Some(c as int - 'A' as int + 10)
    else None
  }

  // ---------------------------------------------------------------------------
  // Writing (serde_json's compact formatter)

  /** Decimal digits of a natural number, without leading zeros. */
  function NatText(n: nat): (t: string)
    ensures |t| > 0 && AllDigits(t)
  {
    if n < 10 then [DigitChar(n)] else NatText(n / 10) + [DigitChar(n % 10)]
  }

  function IntText(n: int): string {
    if n < 0 then "-" + NatText(-n) else NatText(n)
  }

  /** serde_json escapes the quote, the backslash and the control characters below
      U+0020; the five with a short form use it, the rest are written as `\u00XX`
      with lower-case hex digits. Every other character is written as it is. */
  function EscapeChar(c: char): string {
    if c == '"' then "\\\""
    else if c == '\\' then "\\\\"
    else if c as int == 0x08 then "\\b"
    else if c as int == 0x09 then "\\t"
    else if c as int == 0x0A then "\\n"
    else if c as int == 0x0C then "\\f"
    else if c as int == 0x0D then "\\r"
    else if c as int < 0x20 then "\\u00" + [HexDigit(c as int / 16), HexDigit(c as int % 16)]
    else [c]
  }

  function Escape(s: string): string {
    if |s| == 0 then "" else EscapeChar(s[0]) + Escape(s[1..])
  }

  function Quote(s: string): string {
    "\"" + Escape(s) + "\""
  }

  /** `Value::to_string`: the compact JSON text, with no whitespace. Its first
      character tells which kind of value it is. */
  function Render(v: JsValue): (t: string)
    ensures |t| > 0
    ensures t[0] == '"' <==> v.String?
    ensures t[0] == '[' <==> v.Array?
    ensures t[0] == '{' <==> v.Object?
    ensures (IsDigit(t[0]) || t[0] == '-') <==> v.Number?
    decreases v
  {
    match v
    case Null => "null"
    case Bool(b) => if b then "true" else "false"
    case Number(n) => IntText(n)
    case String(s) => Quote(s)
    case Array(items) => "[" + JoinTexts(items) + "]"
    case Object(ms) => "{" + JoinMembers(ms) + "}"
  }

  /** The texts of `items`, in order, separated by single commas. */
  function JoinTexts(items: seq<JsValue>): string
    decreases items
  {
    if |items| == 0 then ""
    else if |items| == 1 then Render(items[0])
    else Render(items[0]) + "," + JoinTexts(items[1..])
  }

  function RenderMember(m: Member): string
    decreases m
  {
    Quote(m.key) + ":" + Render(m.value)
  }

  function JoinMembers(ms: seq<Member>): string
    decreases ms
  {
    if |ms| == 0 then ""
    else if |ms| == 1 then RenderMember(ms[0])
    else RenderMember(ms[0]) + "," + JoinMembers(ms[1..])
  }

  // ---------------------------------------------------------------------------
  // Reading. Each reader returns what it read and the text left after it.

  function Literal(s: string, word: string, v: JsValue): (r: Option<(JsValue, string)>)
    requires |word| > 0
    ensures r.Some? ==> |r.value.1| < |s|
  {
    if |word| <= |s| && s[..|word|] == word then Some((v, s[|word|..])) else None
  }

  /** Reads the digits at the start of `s`, extending the number `acc` read so far. */
  function ReadDigits(s: string, acc: nat): (r: (nat, string))
    ensures |r.1| <= |s|
  {
    if |s| > 0 && IsDigit(s[0]) then ReadDigits(s[1..], acc * 10 + DigitValue(s[0])) else (acc, s)
  }

  function ReadNat(s: string): (r: Option<(nat, string)>)
    ensures r.Some? ==> |r.value.1| < |s|
  {
    if |s| > 0 && IsDigit(s[0]) then Some(ReadDigits(s[1..], DigitValue(s[0]))) else None
  }

  /** The number the digits `ds` denote when appended to `acc`. */
  function DigitsValue(acc: nat, ds: string): nat
    requires AllDigits(ds)
    decreases |ds|
  {
    if |ds| == 0 then acc else DigitsValue(acc * 10 + DigitValue(ds[0]), ds[1..])
  }

  /** The character named by the escape sequence after a backslash, and how many
      characters of `s` the sequence takes. */
  function Unescape(s: string): (r: Option<(char, nat)>)
    ensures r.Some? ==> 0 < r.value.1 <= |s|
  {
    if |s| == 0 then None
    else if s[0] == '"' then Some(('"', 1))
    else if s[0] == '\\' then Some(('\\', 1))
    else if s[0] == '/' then Some(('/', 1))
    else if s[0] == 'b' then Some((0x08 as char, 1))
    else if s[0] == 't' then Some((0x09 as char, 1))
    else if s[0] == 'n' then Some((0x0A as char, 1))
    else if s[0] == 'f' then Some((0x0C as char, 1))
    else if s[0] == 'r' then Some((0x0D as char, 1))
    else if s[0] == 'u' && |s| >= 5 then
      match (HexValue(s[1]), HexValue(s[2]), HexValue(s[3]), HexValue(s[4]))
      case (Some(a), Some(b), Some(c), Some(d)) =>
        var code := ((a * 16 + b) * 16 + c) * 16 + d;
        if code < 0xD800 || 0xE000 <= code < 0x11_0000 then Some((code as char, 5)) else None
      case _ => None
    else None
  }

  function Prepend(c: char, r: Option<(string, string)>): Option<(string, string)> {
    match r
    case None => None
    case Some((cs, rest)) => Some(([c] + cs, rest))
  }

  /** Reads the characters of a string after its opening quote, up to and including the
      closing quote. */
  function ReadStringBody(s: string): (r: Option<(string, string)>)
    ensures r.Some? ==> |r.value.1| < |s|
    decreases |s|
  {
    if |s| == 0 then None
    else if s[0] == '"' then Some(("", s[1..]))
    else if s[0] == '\\' then
      match Unescape(s[1..])
      case None => None
      case Some((c, k)) => Prepend(c, ReadStringBody(s[1 + k..]))
    else Prepend(s[0], ReadStringBody(s[1..]))
  }

  function ReadValue(s: string): (r: Option<(JsValue, string)>)
    ensures r.Some? ==> |r.value.1| < |s|
    decreases |s|, 0
  {
    if |s| == 0 then None
    else if s[0] == 'n' then Literal(s, "null", Null)
    else if s[0] == 't' then Literal(s, "true", Bool(true))
    else if s[0] == 'f' then Literal(s, "false", Bool(false))
    else if s[0] == '"' then AsString(ReadStringBody(s[1..]))
    else if s[0] == '-' then AsNumber(true, ReadNat(s[1..]))
    else if IsDigit(s[0]) then AsNumber(false, ReadNat(s))
    else if s[0] == '[' then
      if 1 < |s| && s[1] == ']' then Some((Array([]), s[2..])) else AsArray(ReadItems(s[1..]))
    else if s[0] == '{' then
      if 1 < |s| && s[1] == '}' then Some((Object([]), s[2..])) else AsObject(ReadMembers(s[1..]))
    else None
  }

  function AsString(r: Option<(string, string)>): Option<(JsValue, string)> {
    match r
    case None => None
    case Some((str, rest)) => Some((String(str), rest))
  }

  function AsNumber(negative: bool, r: Option<(nat, string)>): Option<(JsValue, string)> {
    match r
    case None => None
    case Some((n, rest)) => Some((Number(if negative then 0 - n else n), rest))
  }

  function AsArray(r: Option<(seq<JsValue>, string)>): Option<(JsValue, string)> {
    match r
    case None => None
    case Some((items, rest)) => Some((Array(items), rest))
  }

  function AsObject(r: Option<(seq<Member>, string)>): Option<(JsValue, string)> {
    match r
    case None => None
    case Some((ms, rest)) => Some((Object(ms), rest))
  }

  /** Reads `value (',' value)* ']'`: the elements of a non-empty array. */
  function ReadItems(s: string): (r: Option<(seq<JsValue>, string)>)
    ensures r.Some? ==> |r.value.1| < |s|
    decreases |s|, 1
  {
    match ReadValue(s)
    case None => None
    case Some((v, rest)) =>
      if 0 < |rest| && rest[0] == ']' then Some(([v], rest[1..]))
      else if 0 < |rest| && rest[0] == ',' then
        match ReadItems(rest[1..])
        case None => None
        case Some((vs, rest')) => Some(([v] + vs, rest'))
      else None
  }

  /** Reads `"key":value (',' "key":value)* '}'`: the members of a non-empty object. */
  function ReadMembers(s: string): (r: Option<(seq<Member>, string)>)
    ensures r.Some? ==> |r.value.1| < |s|
    decreases |s|, 2
  {
    if |s| == 0 || s[0] != '"' then None
    else
      match ReadStringBody(s[1..])
      case None => None
      case Some((key, rest)) =>
        if |rest| == 0 || rest[0] != ':' then None
        else ReadMemberTail(key, ReadValue(rest[1..]))
  }

  /** Finishes reading one member whose value has been read, then the members after it. */
  function ReadMemberTail(key: string, r: Option<(JsValue, string)>): (r': Option<(seq<Member>, string)>)
    ensures r.Some? && r'.Some? ==> |r'.value.1| < |r.value.1|
    decreases if r.Some? then |r.value.1| else 0, 1
  {
    match r
    case None => None
    case Some((v, rest)) =>
      if 0 < |rest| && rest[0] == '}' then Some(([Member(key, v)], rest[1..]))
      else if 0 < |rest| && rest[0] == ',' then
        match ReadMembers(rest[1..])
        case None => None
        case Some((ms, rest')) => Some(([Member(key, v)] + ms, rest'))
      else None
  }

  /** Reads a JavaScript argument list made of JSON texts separated by commas; the empty
      text is the empty list. */
  function ReadArgList(s: string): Option<seq<JsValue>> {
    if |s| == 0 then Some([]) else ReadArgs(s)
  }

  function ReadArgs(s: string): Option<seq<JsValue>>
    decreases |s|
  {
    match ReadValue(s)
    case None => None
    case Some((v, rest)) =>
      if |rest| == 0 then Some([v])
      else if rest[0] == ',' then
        match ReadArgs(rest[1..])
        case None => None
        case Some(vs) => Some([v] + vs)
      else None
  }

  // ---------------------------------------------------------------------------
  // Round trips

  /** What may follow a JSON text without changing how it is read: anything but a digit,
      which would extend a number. */
  predicate Delimited(rest: string) {
    |rest| == 0 || !IsDigit(rest[0])
  }

  lemma {:induction false} DigitsValueSnoc(acc: nat, ds: string, d: nat)
    requires AllDigits(ds) && d < 10
    ensures AllDigits(ds + [DigitChar(d)])
    ensures DigitsValue(acc, ds + [DigitChar(d)]) == DigitsValue(acc, ds) * 10 + d
    decreases |ds|
  {
    var t := ds + [DigitChar(d)];
    if |ds| == 0 {
      assert t == [DigitChar(d)];
      assert t[1..] == [];
    } else {
      assert t[0] == ds[0];
      assert t[1..] == ds[1..] + [DigitChar(d)];
      DigitsValueSnoc(acc * 10 + DigitValue(ds[0]), ds[1..], d);
    }
  }

  lemma {:induction false} DigitsValueOfNatText(n: nat)
    ensures DigitsValue(0, NatText(n)) == n
  {
    if n < 10 {
      assert NatText(n)[1..] == [];
    } else {
      DigitsValueOfNatText(n / 10);
      DigitsValueSnoc(0, NatText(n / 10), n % 10);
    }
  }

  lemma {:induction false} ReadDigitsThen(ds: string, rest: string, acc: nat)
    requires AllDigits(ds) && Delimited(rest)
    ensures ReadDigits(ds + rest, acc) == (DigitsValue(acc, ds), rest)
    decreases |ds|
  {
    var s := ds + rest;
    if |ds| == 0 {
      assert s == rest;
    } else {
      assert s[0] == ds[0] && s[1..] == ds[1..] + rest;
      ReadDigitsThen(ds[1..], rest, acc * 10 + DigitValue(ds[0]));
    }
  }

  lemma ReadNatText(n: nat, rest: string)
    requires Delimited(rest)
    ensures ReadNat(NatText(n) + rest) == Some((n, rest))
  {
    var t := NatText(n);
    var s := t + rest;
    assert s[0] == t[0] && s[1..] == t[1..] + rest;
    ReadDigitsThen(t[1..], rest, DigitValue(t[0]));
    DigitsValueOfNatText(n);
  }

  /** Reading one character written by `EscapeChar`, followed by the rest of a string. */
  lemma ReadEscapeChar(c: char, tail: string)
    ensures ReadStringBody(EscapeChar(c) + tail) == Prepend(c, ReadStringBody(tail))
  {
    if c == '"' {
      ReadShortEscape('"', c, tail);
    } else if c == '\\' {
      ReadShortEscape('\\', c, tail);
    } else if c as int == 0x08 {
      ReadShortEscape('b', c, tail);
    } else if c as int == 0x09 {
      ReadShortEscape('t', c, tail);
    } else if c as int == 0x0A {
      ReadShortEscape('n', c, tail);
    } else if c as int == 0x0C {
      ReadShortEscape('f', c, tail);
    } else if c as int == 0x0D {
      ReadShortEscape('r', c, tail);
    } else if c as int < 0x20 {
      ReadUnicodeEscape(c, tail);
    } else {
      var s := [c] + tail;
      assert EscapeChar(c) + tail == s;
      assert s[0] == c && s[1..] == tail;
      assert ReadStringBody(s) == Prepend(c, ReadStringBody(s[1..]));
    }
  }

  lemma ReadShortEscape(x: char, c: char, tail: string)
    requires Unescape([x] + tail) == Some((c, 1))
    ensures ReadStringBody(['\\', x] + tail) == Prepend(c, ReadStringBody(tail))
  {
    var s := ['\\', x] + tail;
    assert s[0] == '\\';
    assert s[1..] == [x] + tail;
    assert s[2..] == tail;
    assert ReadStringBody(s) == Prepend(c, ReadStringBody(s[1 + 1..]));
  }

  lemma ReadUnicodeEscape(c: char, tail: string)
    requires c as int < 0x20
    ensures ReadStringBody("\\u00" + [HexDigit(c as int / 16), HexDigit(c as int % 16)] + tail)
         == Prepend(c, ReadStringBody(tail))
  {
    var hi := c as int / 16;
    var lo := c as int % 16;
    var s := "\\u00" + [HexDigit(hi), HexDigit(lo)] + tail;
    var u := s[1..];
    assert u == ['u', '0', '0', HexDigit(hi), HexDigit(lo)] + tail;
    assert HexValue(u[1]) == Some(0);
    assert HexValue(u[2]) == Some(0);
    assert HexValue(u[3]) == Some(hi);
    assert HexValue(u[4]) == Some(lo);
    assert Unescape(u) == Some((c, 5));
    assert s[0] == '\\';
    assert s[6..] == tail;
    assert ReadStringBody(s) == Prepend(c, ReadStringBody(s[1 + 5..]));
  }

  lemma {:induction false} ReadEscaped(cs: string, rest: string)
    ensures ReadStringBody(Escape(cs) + "\"" + rest) == Some((cs, rest))
  {
    var s := Escape(cs) + "\"" + rest;
    if |cs| == 0 {
      assert s == "\"" + rest;
      assert s[0] == '"' && s[1..] == rest;
      assert ReadStringBody(s) == Some(("", rest));
    } else {
      var tail := Escape(cs[1..]) + "\"" + rest;
      assert s == EscapeChar(cs[0]) + tail;
      ReadEscapeChar(cs[0], tail);
      ReadEscaped(cs[1..], rest);
      assert [cs[0]] + cs[1..] == cs;
    }
  }

  lemma ReadQuoted(str: string, rest: string)
    ensures ReadValue(Quote(str) + rest) == Some((String(str), rest))
  {
    var s := Quote(str) + rest;
    assert s[0] == '"' && s[1..] == Escape(str) + "\"" + rest;
    ReadEscaped(str, rest);
    ReadValueString(s);
  }

  lemma RenderStart(v: JsValue)
    ensures |Render(v)| > 0
    ensures Render(v)[0] != ']' && Render(v)[0] != '}' && Render(v)[0] != ','
  {
    match v
    case Number(n) =>
      if n >= 0 {
        assert IsDigit(NatText(n)[0]);
      }
    case _ =>
  }

  // How `ReadValue` dispatches on the first character, one case per lemma.

  lemma ReadValueString(s: string)
    requires |s| > 0 && s[0] == '"'
    ensures ReadValue(s) == AsString(ReadStringBody(s[1..]))
  {
  }

  lemma ReadValueNegative(s: string)
    requires |s| > 0 && s[0] == '-'
    ensures ReadValue(s) == AsNumber(true, ReadNat(s[1..]))
  {
  }

  lemma ReadValueNatural(s: string)
    requires |s| > 0 && IsDigit(s[0])
    ensures ReadValue(s) == AsNumber(false, ReadNat(s))
  {
  }

  lemma ReadValueArray(s: string)
    requires 1 < |s| && s[0] == '[' && s[1] != ']'
    ensures ReadValue(s) == AsArray(ReadItems(s[1..]))
  {
  }

  lemma ReadValueObject(s: string)
    requires 1 < |s| && s[0] == '{' && s[1] != '}'
    ensures ReadValue(s) == AsObject(ReadMembers(s[1..]))
  {
  }

  lemma ReadWord(word: string, v: JsValue, rest: string)
    requires |word| > 0
    ensures Literal(word + rest, word, v) == Some((v, rest))
  {
    assert (word + rest)[..|word|] == word;
    assert (word + rest)[|word|..] == rest;
  }

  lemma ReadNumber(n: int, rest: string)
    requires Delimited(rest)
    ensures ReadValue(IntText(n) + rest) == Some((Number(n), rest))
  {
    var s := IntText(n) + rest;
    if n < 0 {
      assert s == "-" + (NatText(-n) + rest);
      assert s[0] == '-' && s[1..] == NatText(-n) + rest;
      ReadNatText(-n, rest);
      ReadValueNegative(s);
    } else {
      ReadNatText(n, rest);
      assert s[0] == NatText(n)[0];
      assert IsDigit(s[0]);
      ReadValueNatural(s);
    }
  }

  lemma ReadArray(items: seq<JsValue>, rest: string)
    requires |items| > 0
    requires ReadItems(JoinTexts(items) + "]" + rest) == Some((items, rest))
    ensures ReadValue(Render(Array(items)) + rest) == Some((Array(items), rest))
  {
    JoinTextsStart(items);
    assert Render(Array(items)) == "[" + JoinTexts(items) + "]";
    ReadBracketed(JoinTexts(items), items, rest);
  }

  lemma JoinTextsStart(items: seq<JsValue>)
    requires |items| > 0
    ensures |JoinTexts(items)| > 0 && JoinTexts(items)[0] != ']'
  {
    RenderStart(items[0]);
    assert JoinTexts(items)[0] == Render(items[0])[0];
  }

  lemma ReadBracketed(inner: string, items: seq<JsValue>, rest: string)
    requires |inner| > 0 && inner[0] != ']'
    requires ReadItems(inner + "]" + rest) == Some((items, rest))
    ensures ReadValue("[" + inner + "]" + rest) == Some((Array(items), rest))
  {
    var s := "[" + inner + "]" + rest;
    assert s == "[" + (inner + "]" + rest);
    assert s[1..] == inner + "]" + rest;
    assert s[0] == '[' && s[1] != ']';
    ReadValueArray(s);
  }

  lemma ReadObject(ms: seq<Member>, rest: string)
    requires |ms| > 0
    requires ReadMembers(JoinMembers(ms) + "}" + rest) == Some((ms, rest))
    ensures ReadValue(Render(Object(ms)) + rest) == Some((Object(ms), rest))
  {
    JoinMembersStart(ms);
    assert Render(Object(ms)) == "{" + JoinMembers(ms) + "}";
    ReadBraced(JoinMembers(ms), ms, rest);
  }

  lemma JoinMembersStart(ms: seq<Member>)
    requires |ms| > 0
    ensures |JoinMembers(ms)| > 0 && JoinMembers(ms)[0] == '"'
  {
    assert JoinMembers(ms)[0] == RenderMember(ms[0])[0];
  }

  lemma ReadBraced(inner: string, ms: seq<Member>, rest: string)
    requires |inner| > 0 && inner[0] != '}'
    requires ReadMembers(inner + "}" + rest) == Some((ms, rest))
    ensures ReadValue("{" + inner + "}" + rest) == Some((Object(ms), rest))
  {
    var s := "{" + inner + "}" + rest;
    assert s == "{" + (inner + "}" + rest);
    assert s[1..] == inner + "}" + rest;
    assert s[0] == '{' && s[1] != '}';
    ReadValueObject(s);
  }

  lemma {:induction false} ReadRender(v: JsValue, rest: string)
    requires Delimited(rest)
    ensures ReadValue(Render(v) + rest) == Some((v, rest))
    decreases v, 0
  {
    match v
    case Null =>
      ReadWord("null", Null, rest);
    case Bool(b) =>
      if b {
        ReadWord("true", Bool(true), rest);
      } else {
        ReadWord("false", Bool(false), rest);
      }
    case Number(n) =>
      ReadNumber(n, rest);
    case String(str) =>
      ReadQuoted(str, rest);
    case Array(items) =>
      if |items| == 0 {
        assert (Render(v) + rest)[2..] == rest;
      } else {
        ReadJoinedItems(items, rest);
        ReadArray(items, rest);
      }
    case Object(ms) =>
      if |ms| == 0 {
        assert (Render(v) + rest)[2..] == rest;
      } else {
        ReadJoinedMembers(ms, rest);
        ReadObject(ms, rest);
      }
  }

  // One step of the list readers, one case per lemma.

  lemma ReadItemsLast(s: string, v: JsValue, rest: string)
    requires ReadValue(s) == Some((v, rest))
    requires 0 < |rest| && rest[0] == ']'
    ensures ReadItems(s) == Some(([v], rest[1..]))
  {
  }

  lemma ReadItemsMore(s: string, v: JsValue, rest: string, vs: seq<JsValue>, rest': string)
    requires ReadValue(s) == Some((v, rest))
    requires 0 < |rest| && rest[0] == ','
    requires ReadItems(rest[1..]) == Some((vs, rest'))
    ensures ReadItems(s) == Some(([v] + vs, rest'))
  {
  }

  lemma ReadMembersStep(s: string, key: string, rest: string)
    requires 0 < |s| && s[0] == '"'
    requires ReadStringBody(s[1..]) == Some((key, rest))
    requires 0 < |rest| && rest[0] == ':'
    ensures ReadMembers(s) == ReadMemberTail(key, ReadValue(rest[1..]))
  {
  }

  lemma ReadMemberTailLast(key: string, v: JsValue, rest: string)
    requires 0 < |rest| && rest[0] == '}'
    ensures ReadMemberTail(key, Some((v, rest))) == Some(([Member(key, v)], rest[1..]))
  {
  }

  lemma ReadMemberTailMore(key: string, v: JsValue, rest: string, ms: seq<Member>, rest': string)
    requires 0 < |rest| && rest[0] == ','
    requires ReadMembers(rest[1..]) == Some((ms, rest'))
    ensures ReadMemberTail(key, Some((v, rest))) == Some(([Member(key, v)] + ms, rest'))
  {
  }

  lemma ReadArgsLast(s: string, v: JsValue)
    requires ReadValue(s) == Some((v, ""))
    ensures ReadArgs(s) == Some([v])
  {
  }

  lemma ReadArgsMore(s: string, v: JsValue, rest: string, vs: seq<JsValue>)
    requires ReadValue(s) == Some((v, rest))
    requires 0 < |rest| && rest[0] == ','
    requires ReadArgs(rest[1..]) == Some(vs)
    ensures ReadArgs(s) == Some([v] + vs)
  {
  }

  lemma {:induction false} ReadJoinedItems(items: seq<JsValue>, rest: string)
    requires |items| > 0
    ensures ReadItems(JoinTexts(items) + "]" + rest) == Some((items, rest))
    decreases items, 1
  {
    var s := JoinTexts(items) + "]" + rest;
    if |items| == 1 {
      assert s == Render(items[0]) + ("]" + rest);
      ReadRender(items[0], "]" + rest);
      assert ("]" + rest)[1..] == rest;
      ReadItemsLast(s, items[0], "]" + rest);
      assert [items[0]] == items;
    } else {
      var tail := JoinTexts(items[1..]) + "]" + rest;
      assert s == Render(items[0]) + ("," + tail);
      ReadRender(items[0], "," + tail);
      assert ("," + tail)[1..] == tail;
      ReadJoinedItems(items[1..], rest);
      ReadItemsMore(s, items[0], "," + tail, items[1..], rest);
      assert [items[0]] + items[1..] == items;
    }
  }

  /** Reading a member's key and colon leaves the reader at the member's value. The value's
      text is a parameter so that the proof does not look inside it. */
  lemma ReadMemberKey(key: string, valueText: string, after: string)
    ensures ReadMembers(Quote(key) + ":" + valueText + after) == ReadMemberTail(key, ReadValue(valueText + after))
  {
    var s := Quote(key) + ":" + valueText + after;
    assert s == "\"" + (Escape(key) + "\"" + (":" + (valueText + after)));
    assert s[0] == '"' && s[1..] == Escape(key) + "\"" + (":" + (valueText + after));
    ReadEscaped(key, ":" + (valueText + after));
    assert (":" + (valueText + after))[1..] == valueText + after;
    ReadMembersStep(s, key, ":" + (valueText + after));
  }

  lemma JoinOneMember(ms: seq<Member>, rest: string)
    requires |ms| == 1
    ensures JoinMembers(ms) + "}" + rest == RenderMember(ms[0]) + ("}" + rest)
  {
    assert JoinMembers(ms) == RenderMember(ms[0]);
  }

  lemma JoinMoreMembers(ms: seq<Member>, rest: string)
    requires |ms| > 1
    ensures JoinMembers(ms) + "}" + rest == RenderMember(ms[0]) + ("," + (JoinMembers(ms[1..]) + "}" + rest))
  {
    JoinMembersCons(ms);
    RegroupClose(JoinMembers(ms), RenderMember(ms[0]), JoinMembers(ms[1..]), rest);
  }

  lemma JoinMembersCons(ms: seq<Member>)
    requires |ms| > 1
    ensures JoinMembers(ms) == RenderMember(ms[0]) + "," + JoinMembers(ms[1..])
  {
  }

  lemma RegroupClose(whole: string, first: string, others: string, rest: string)
    requires whole == first + "," + others
    ensures whole + "}" + rest == first + ("," + (others + "}" + rest))
  {
  }

  lemma ReadRenderedMember(m: Member, after: string)
    requires ReadValue(Render(m.value) + after) == Some((m.value, after))
    ensures ReadMembers(RenderMember(m) + after) == ReadMemberTail(m.key, Some((m.value, after)))
  {
    assert RenderMember(m) + after == Quote(m.key) + ":" + Render(m.value) + after;
    ReadMemberKey(m.key, Render(m.value), after);
  }

  lemma {:induction false} ReadJoinedMembers(ms: seq<Member>, rest: string)
    requires |ms| > 0
    ensures ReadMembers(JoinMembers(ms) + "}" + rest) == Some((ms, rest))
    decreases ms, 1
  {
    var m := ms[0];
    if |ms| == 1 {
      JoinOneMember(ms, rest);
      ReadRender(m.value, "}" + rest);
      ReadRenderedMember(m, "}" + rest);
      ReadMemberTailLast(m.key, m.value, "}" + rest);
      assert ("}" + rest)[1..] == rest;
      assert [Member(m.key, m.value)] == ms;
    } else {
      var tailText := JoinMembers(ms[1..]) + "}" + rest;
      JoinMoreMembers(ms, rest);
      ReadRender(m.value, "," + tailText);
      ReadRenderedMember(m, "," + tailText);
      ReadJoinedMembers(ms[1..], rest);
      assert ("," + tailText)[1..] == tailText;
      ReadMemberTailMore(m.key, m.value, "," + tailText, ms[1..], rest);
      assert [Member(m.key, m.value)] + ms[1..] == ms;
    }
  }

  /** A comma-separated list of JSON texts reads back as the list of values it was
      written from, in order. */
  lemma {:induction false} ReadJoinedArgs(vs: seq<JsValue>)
    ensures ReadArgList(JoinTexts(vs)) == Some(vs)
  {
    if |vs| > 0 {
      RenderStart(vs[0]);
      ReadJoinedArgsNonEmpty(vs);
    }
  }

  lemma {:induction false} ReadJoinedArgsNonEmpty(vs: seq<JsValue>)
    requires |vs| > 0
    ensures ReadArgs(JoinTexts(vs)) == Some(vs)
  {
    var s := JoinTexts(vs);
    if |vs| == 1 {
      ReadRender(vs[0], "");
      assert s == Render(vs[0]) + "";
      ReadArgsLast(s, vs[0]);
      assert [vs[0]] == vs;
    } else {
      var tail := JoinTexts(vs[1..]);
      assert s == Render(vs[0]) + ("," + tail);
      ReadRender(vs[0], "," + tail);
      assert ("," + tail)[1..] == tail;
      ReadJoinedArgsNonEmpty(vs[1..]);
      ReadArgsMore(s, vs[0], "," + tail, vs[1..]);
      assert [vs[0]] + vs[1..] == vs;
    }
  }
}

=== FILE: legacy_script.dfy ===
/** The earlier `Script` of src/script.rs: the same result-slot protocol with a
    synchronous invocation program, a single argument value per call, and the result
    op registered by name (`__rust_return`) on the engine. */
module LegacyScripts {
  import opened Outcomes
  import opened Json
  import opened JsErrors
  import opened Resources
  import opened Engine
  import Scripts

  /** The panic of `Option::unwrap` when no result waits in the slot being read. */
  const UnwrapNone := "called `Option::unwrap()` on a `None` value"

  /** How the called function ended. The invocation program is synchronous, so the
      function either returns or throws before the program ends. */
  datatype SyncRun = Returned(result: JsReturn) | Raised(error: AnyError)

  /** `Script`: the engine (an isolate) and the id of the next result slot to read. */
  datatype LegacyScript = LegacyScript(isolate: Scripts.JsRuntime, lastRid: nat)

  predicate Synced(s: LegacyScript) {
    s.isolate.table.IsEmpty() && s.isolate.table.nextRid == s.lastRid
  }

  /** `Script::create_script`: executes the code under the given file name. */
  function CreateScript(jsCode: string, jsFilename: string, loadError: Option<AnyError>): (r: Result<LegacyScript, JsError>)
    ensures r.Ok? <==> loadError.None?
    ensures r.Err? ==> r.error == FromAnyError(loadError.value)
    ensures r.Ok? ==> r.value.isolate.executed == [Scripts.Source(jsFilename, jsCode)]
    ensures r.Ok? ==> r.value.lastRid == 0 && Synced(r.value)
  {
    if loadError.Some? then Err(FromAnyError(loadError.value))
    else Ok(LegacyScript(Scripts.JsRuntime([Scripts.Source(jsFilename, jsCode)], EmptyTable), 0))
  }

  /** `Script::from_string`: the same console shim as the current version, followed by
      the user's code, under the default file name. */
  function FromString(jsCode: string, loadError: Option<AnyError>): (r: Result<LegacyScript, JsError>)
    ensures r.Ok? <==> loadError.None?
    ensures r.Ok? ==> r.value.isolate.executed == [Scripts.Source(Scripts.DefaultFilename, Scripts.ConsoleShim + jsCode)]
    ensures r.Ok? ==> r.value.lastRid == 0 && Synced(r.value)
  {
    CreateScript(Scripts.ConsoleShim + jsCode, Scripts.DefaultFilename, loadError)
  }

  const LegacyHead := "{\n\t\t\tlet __rust_result = "
  const LegacyGuard := ";\n\t\t\tif (typeof __rust_result === 'undefined')\n\t\t\t\t__rust_result = null;\n\n\t\t\t"
  const LegacyReturn := "Deno.core.ops();\n\t\t\tDeno.core.jsonOpSync(\"__rust_return\", __rust_result);"
  const LegacyTail := "}"

  /** Everything the block has after the call. */
  const LegacySuffix := LegacyGuard + LegacyReturn + LegacyTail

  /** The block `call_json` runs: a direct, synchronous call of `f` with `a`, `undefined`
      replaced by `null`, and the result sent to the `__rust_return` op. */
  function InvocationSource(f: string, a: string): (code: string)
    ensures Scripts.InfixAt(LegacyHead, code, 0)
    ensures Scripts.InfixAt(f + "(" + a + ")", code, |LegacyHead|)
    ensures Scripts.InfixAt(LegacyGuard, code, |LegacyHead| + |f + "(" + a + ")"|)
    ensures Scripts.InfixAt(LegacyReturn, code, |LegacyHead| + |f + "(" + a + ")"| + |LegacyGuard|)
    ensures CallOf(code) == Some(f + "(" + a + ")")
  {
    var code := LegacyHead + (f + "(" + a + ")") + LegacyGuard + LegacyReturn + LegacyTail;
    Scripts.FiveParts(LegacyHead, f + "(" + a + ")", LegacyGuard, LegacyReturn, LegacyTail);
    Scripts.BetweenExactly(LegacyHead, LegacySuffix, code, f + "(" + a + ")");
    code
  }

  /** The call of a block of the shape `InvocationSource` writes. */
  function CallOf(code: string): Option<string> {
    Scripts.Between(LegacyHead, LegacySuffix, code)
  }

  /** `CallOf` recovers the call of exactly the blocks `InvocationSource` writes. */
  lemma CallOfOnlyInvocations(code: string, f: string, a: string)
    ensures CallOf(code) == Some(f + "(" + a + ")") <==> code == InvocationSource(f, a)
  {
    Scripts.FiveParts(LegacyHead, f + "(" + a + ")", LegacyGuard, LegacyReturn, LegacyTail);
    Scripts.BetweenExactly(LegacyHead, LegacySuffix, code, f + "(" + a + ")");
  }

  /** The argument text is recoverable from the block: two blocks calling the same
      function are equal exactly when their argument texts are. */
  lemma InvocationArgsRecoverable(f: string, a: string, a': string)
    ensures InvocationSource(f, a) == InvocationSource(f, a') <==> a == a'
  {
    if InvocationSource(f, a) == InvocationSource(f, a') {
      assert f + "(" + a + ")" == f + "(" + a' + ")";
      Scripts.InfixOfConcat(f + "(", a, ")");
      Scripts.InfixOfConcat(f + "(", a', ")");
    }
  }

  /** `Script::call_json`: runs the block; an exception is returned before the slot
      is read and leaves `last_rid` unchanged. Otherwise the `__rust_return` op has
      stored the result, the entry under `last_rid` is removed (a missing entry
      panics) and `last_rid` advances by one. */
  function CallJson(s: LegacyScript, fnName: string, args: JsValue, run: SyncRun): (r: (LegacyScript, Outcome<JsValue, JsError>))
    ensures r.0.isolate.executed == s.isolate.executed + [Scripts.Source(Scripts.DefaultFilename, InvocationSource(fnName, Render(args)))]
    ensures r.1.Failed? <==> run.Raised?
    ensures run.Raised? ==> r.1.error == FromAnyError(run.error) && r.0.lastRid == s.lastRid
    ensures r.1.Done? ==> r.0.lastRid == s.lastRid + 1
    ensures Synced(s) ==> Synced(r.0) && !r.1.Panic?
    ensures Synced(s) && run.Returned? ==> r.1 == Done(NullIfUndefined(run.result))
  {
    var code := InvocationSource(fnName, Render(args));
    var executed := s.isolate.executed + [Scripts.Source(Scripts.DefaultFilename, code)];
    match run
    case Raised(e) =>
      (s.(isolate := Scripts.JsRuntime(executed, s.isolate.table)), Failed(FromAnyError(e)))
    case Returned(res) =>
      var (filled, _) := Scripts.OpReturn(s.isolate.table, NullIfUndefined(res));
      var (table, entry) := filled.Take(s.lastRid);
      if entry.None? then (s.(isolate := Scripts.JsRuntime(executed, filled)), Panic(UnwrapNone))
      else (LegacyScript(Scripts.JsRuntime(executed, table), s.lastRid + 1), Done(entry.value))
  }

  /** `Script::call`: a single argument value, converted to JSON, is passed to
      `call_json`, and the result is converted back with `fromValue`; each of the
      three steps can fail. */
  function Call<P, R>(s: LegacyScript, fnName: string, arg: P, toValue: P -> Result<JsValue, JsonError>,
                      run: SyncRun, fromValue: JsValue -> Result<R, JsonError>): (r: (LegacyScript, Outcome<R, JsError>))
    ensures toValue(arg).Err? ==> r.0 == s && r.1.Failed? && r.1.error == FromJsonError(toValue(arg).error)
    ensures toValue(arg).Ok? ==> r.0 == CallJson(s, fnName, toValue(arg).value, run).0
    ensures toValue(arg).Ok? && run.Raised? ==> r.1.Failed? && r.1.error == FromAnyError(run.error)
    ensures toValue(arg).Ok? && run.Returned? && Synced(s) ==>
      var v := NullIfUndefined(run.result);
      (fromValue(v).Ok? ==> r.1 == Done(fromValue(v).value)) &&
      (fromValue(v).Err? ==> r.1 == Failed(FromJsonError(fromValue(v).error)))
  {
    match toValue(arg)
    case Err(e) => (s, Failed(FromJsonError(e)))
    case Ok(a) =>
      var (s', o) := CallJson(s, fnName, a, run);
      (s', Scripts.DecodeOutcome(o, fromValue))
  }

  /** The assertion left commented out in `op_return`: in step, the id the op is given
      for the result is the slot the host reads next. */
  lemma ReturnIdIsLastRid(s: LegacyScript, v: JsValue)
    requires Synced(s)
    ensures s.isolate.table.Add(v).1 == s.lastRid
    ensures Scripts.OpReturn(s.isolate.table, v).0.Lookup(s.lastRid) == Some(v)
  {
  }
}

=== FILE: outcomes.dfy ===
/** Failure-carrying wrappers shared by the whole model.
    - Option<T> models Rust's `Option<T>`.
    - Result<T, E> models Rust's `Result<T, E>`.
    - Outcome<T, E> is a Rust `Result<T, E>` that may also end in a panic
      (`expect`, `unwrap`, `assert!`), which is not an error value but an abort. */
module Outcomes {

  datatype Option<+T> = None | Some(value: T)

  datatype Result<+T, +E> = Ok(value: T) | Err(error: E)

  datatype Outcome<+T, +E> = Done(value: T) | Failed(error: E) | Panic(message: string) {

    /** Lifts a Rust `Result` into an outcome that did not panic. */
    static function FromResult(r: Result<T, E>): (o: Outcome<T, E>)
      ensures o.Panic? == false
      ensures r.Ok? <==> o.Done?
      ensures r.Ok? ==> o.value == r.value
      ensures r.Err? ==> o.error == r.error
    {
      match r
      case Ok(v) => Done(v)
      case Err(e) => Failed(e)
    }
  }

  /** Applies `f` to every element in order and collects the results, stopping at the
      first failure, as a Rust loop with `?` (or `collect::<Result<Vec<_>, _>>()`) does. */
  function Traverse<A, B, E(==)>(xs: seq<A>, f: A -> Result<B, E>): (r: Result<seq<B>, E>)
    ensures r.Ok? <==> forall i :: 0 <= i < |xs| ==> f(xs[i]).Ok?
    ensures r.Ok? ==> |r.value| == |xs|
    ensures r.Ok? ==> forall i :: 0 <= i < |xs| ==> r.value[i] == f(xs[i]).value
    ensures r.Err? ==> FirstFailure(xs, f, r.error)
    decreases |xs|
  {
    if |xs| == 0 then Ok([])
    else
      match f(xs[0])
      case Err(e) =>
        assert FirstFailureAt(xs, f, e, 0);
        Err(e)
      case Ok(y) =>
        match Traverse(xs[1..], f)
        case Err(e) =>
          var i :| FirstFailureAt(xs[1..], f, e, i);
          assert xs[1..][i] == xs[i + 1];
          assert FirstFailureAt(xs, f, e, i + 1);
          Err(e)
        case Ok(ys) =>
          assert forall i :: 1 <= i < |xs| ==> xs[i] == xs[1..][i - 1];
          Ok([y] + ys)
  }

  /** Element `i` is the first one on which `f` fails, and it fails with `e`. */
  predicate FirstFailureAt<A, B, E(==)>(xs: seq<A>, f: A -> Result<B, E>, e: E, i: int) {
    0 <= i < |xs| && f(xs[i]).Err? && f(xs[i]).error == e && forall j :: 0 <= j < i ==> f(xs[j]).Ok?
  }

  predicate FirstFailure<A, B, E(==)>(xs: seq<A>, f: A -> Result<B, E>, e: E) {
    exists i :: 0 <= i < |xs| && FirstFailureAt(xs, f, e, i)
  }

  /** Two element functions that agree on every element give the same traversal. */
  lemma TraverseAgree<A, B, E>(xs: seq<A>, f: A -> Result<B, E>, g: A -> Result<B, E>)
    requires forall i :: 0 <= i < |xs| ==> f(xs[i]) == g(xs[i])
    ensures Traverse(xs, f) == Traverse(xs, g)
  {
    var r, q := Traverse(xs, f), Traverse(xs, g);
    if r.Ok? {
      assert r.value == q.value;
    } else {
      var i :| 0 <= i < |xs| && FirstFailureAt(xs, f, r.error, i);
      var j :| 0 <= j < |xs| && FirstFailureAt(xs, g, q.error, j);
      assert i == j;
    }
  }
}

=== FILE: resources.dfy ===
/** The engine's resource table (deno_core's `ResourceTable`), as far as the bridge uses
    it: `add` stores a value under the next free resource id and `take` removes the value
    stored under an id. Ids are handed out in increasing order from 0 and never reused. */
module Resources {
  import opened Outcomes
  import opened Json

  datatype ResourceTable = ResourceTable(index: map<nat, JsValue>, nextRid: nat) {

    /** Every stored id was handed out before. */
    ghost predicate Valid() {
      forall rid :: rid in index ==> rid < nextRid
    }

    /** A table that holds nothing. */
    predicate IsEmpty() {
      index == map[]
    }

    function Lookup(rid: nat): Option<JsValue> {
      if rid in index then Some(index[rid]) else None
    }

    /** `ResourceTable::add`: stores `v` under a fresh id and returns that id. */
    function Add(v: JsValue): (r: (ResourceTable, nat))
      ensures r.1 == nextRid
      ensures r.0.Lookup(r.1) == Some(v)
      ensures forall rid :: rid != r.1 ==> r.0.Lookup(rid) == Lookup(rid)
      ensures r.0.index.Keys == index.Keys + {r.1}
      ensures Valid() ==> r.0.Valid() && r.1 !in index
    {
      (ResourceTable(index[nextRid := v], nextRid + 1), nextRid)
    }

    /** `ResourceTable::take`: removes and returns what is stored under `rid`; `None`
        when nothing is. */
    function Take(rid: nat): (r: (ResourceTable, Option<JsValue>))
      ensures r.1 == Lookup(rid)
      ensures r.0.Lookup(rid) == None
      ensures forall other :: other != rid ==> r.0.Lookup(other) == Lookup(other)
      ensures r.0.nextRid == nextRid
      ensures Valid() ==> r.0.Valid()
    {
      (ResourceTable(index - {rid}, nextRid), Lookup(rid))
    }
  }

  /** The table of a freshly started engine. */
  const EmptyTable := ResourceTable(map[], 0)

  /** Taking what was just added gives back the value and the table as it was, apart
      from the id counter, which has moved past the used id. */
  lemma TakeAfterAdd(t: ResourceTable, v: JsValue)
    requires t.Valid()
    ensures t.Add(v).0.Take(t.Add(v).1) == (ResourceTable(t.index, t.nextRid + 1), Some(v))
  {
    var (t1, rid) := t.Add(v);
    assert rid !in t.index;
    assert t1.Take(rid).0.index == t.index;
  }
}

=== FILE: script.dfy ===
/** The `Script` handle of js-sandbox/src/script.rs and its result-slot call protocol.

    A call cannot return a value from JavaScript directly. Instead the host runs a small
    generated program that calls the target function and hands its result to the
    `op_return` op, which stores it in the engine's resource table. The host then takes
    the entry stored under `last_rid`, its own count of completed calls, and advances
    that count by one. Resource ids are handed out in order, so the count and the table
    stay in step as long as every run deposits exactly one entry and every deposit is
    taken. `Synced` states this invariant. */
module Scripts {
  import opened Outcomes
  import opened Json
  import opened JsErrors
  import opened Resources
  import opened CallArgs
  import opened Engine

  /** The file name every script is executed under. */
  const DefaultFilename := "sandboxed.js"

  /** Prepended to user code: a one-argument `console.log` that prints through the
      engine. The `\\n` is a backslash and an `n`, a JavaScript escape. */
  const ConsoleShim := "const console = { log: function(expr) { Deno.core.print(expr + '\\n', false); } };"

  /** The panic raised when no result waits in the slot being read. */
  const MissingEntry := "Resource entry must be present"

  const TimeoutAlreadySet := "assertion failed: self.timeout.is_none()"
  const TimeoutNotPositive := "assertion failed: timeout > Duration::ZERO"

  datatype Duration = Duration(nanos: nat)

  /** One program text the engine was asked to execute, with its file name. */
  datatype Source = Source(filename: string, code: string)

  /** The engine as the host sees it: the program texts executed so far, in order, and
      the resource table. */
  datatype JsRuntime = JsRuntime(executed: seq<Source>, table: ResourceTable)

  /** `Script`: the engine, the id of the next result slot to read, and the timeout. */
  datatype Script = Script(runtime: JsRuntime, lastRid: nat, timeout: Option<Duration>)

  /** No result is waiting, and the next deposit goes to the slot the host reads next. */
  predicate Synced(s: Script) {
    s.runtime.table.IsEmpty() && s.runtime.table.nextRid == s.lastRid
  }

  // ---------------------------------------------------------------------------
  // Construction

  /** `Script::create_script`: starts an engine with the `op_return` op and executes
      the code; `loadError` is what the engine reported for it (a syntax error, an
      uncaught exception), if anything. The code is always executed under the default
      file name: the `js_filename` argument is accepted but not used. */
  function CreateScript(jsCode: string, jsFilename: string, loadError: Option<AnyError>): (r: Result<Script, JsError>)
    ensures r.Ok? <==> loadError.None?
    ensures r.Err? ==> r.error == FromAnyError(loadError.value)
    ensures r.Ok? ==> r.value.runtime.executed == [Source(DefaultFilename, jsCode)]
    ensures r.Ok? ==> r.value.lastRid == 0 && r.value.timeout == None && Synced(r.value)
  {
    if loadError.Some? then Err(FromAnyError(loadError.value))
    else Ok(Script(JsRuntime([Source(DefaultFilename, jsCode)], EmptyTable), 0, None))
  }

  /** `Script::from_string`: the console shim followed by the user's code. */
  function FromString(jsCode: string, loadError: Option<AnyError>): (r: Result<Script, JsError>)
    ensures r.Ok? <==> loadError.None?
    ensures r.Err? ==> r.error == FromAnyError(loadError.value)
    ensures r.Ok? ==> r.value.runtime.executed == [Source(DefaultFilename, ConsoleShim + jsCode)]
    ensures r.Ok? ==> r.value.lastRid == 0 && r.value.timeout == None && Synced(r.value)
  {
    CreateScript(ConsoleShim + jsCode, DefaultFilename, loadError)
  }

  /** `Script::with_timeout`: panics unless no timeout is set yet and the duration is
      positive; otherwise sets the timeout and changes nothing else. */
  function WithTimeout(s: Script, t: Duration): (r: Outcome<Script, JsError>)
    ensures r.Done? <==> s.timeout.None? && t.nanos > 0
    ensures !r.Done? ==> r.Panic?
    ensures r.Done? ==> r.value.timeout == Some(t)
    ensures r.Done? ==> r.value.runtime == s.runtime && r.value.lastRid == s.lastRid
  {
    if s.timeout.Some? then Panic(TimeoutAlreadySet)
    else if t.nanos == 0 then Panic(TimeoutNotPositive)
    else Done(s.(timeout := Some(t)))
  }

  /** A timeout can be set once only. */
  lemma TimeoutSetOnce(s: Script, t: Duration, t': Duration)
    requires WithTimeout(s, t).Done?
    ensures WithTimeout(WithTimeout(s, t).value, t') == Panic(TimeoutAlreadySet)
  {
  }

  // ---------------------------------------------------------------------------
  // Program text

  /** `s` occurs somewhere inside `text`. */
  predicate Infix(s: string, text: string) {
    exists i :: 0 <= i <= |text| && InfixAt(s, text, i)
  }

  /** `s` occurs inside `text` starting at position `i`. */
  predicate InfixAt(s: string, text: string, i: int) {
    0 <= i <= |text| - |s| && text[i..i + |s|] == s
  }

  lemma InfixOfConcat(a: string, s: string, b: string)
    ensures InfixAt(s, a + s + b, |a|)
    ensures Infix(s, a + s + b)
  {
    var text := a + s + b;
    assert text[|a|..|a| + |s|] == s;
    assert 0 <= |a| <= |text| && InfixAt(s, text, |a|);
  }

  /** The text of `code` between the prefix `h` and the suffix `t`, when `code` starts
      with `h` and ends with `t` and the two do not overlap. */
  function Between(h: string, t: string, code: string): Option<string> {
    if |code| >= |h| + |t| && code[..|h|] == h && code[|code| - |t|..] == t
    then Some(code[|h|..|code| - |t|])
    else None
  }

  /** `Between` recovers the middle of exactly the texts `h + m + t`. */
  lemma BetweenExactly(h: string, t: string, code: string, m: string)
    ensures Between(h, t, code) == Some(m) <==> code == h + m + t
  {
    if code == h + m + t {
      assert code[..|h|] == h;
      assert code[|code| - |t|..] == t;
      assert code[|h|..|code| - |t|] == m;
    }
    if Between(h, t, code) == Some(m) {
      assert code == code[..|h|] + code[|h|..|code| - |t|] + code[|code| - |t|..];
    }
  }

  // ---------------------------------------------------------------------------
  // The invocation program

  const InvocationHead := "(async () => {\n\t\t\t\tlet __rust_result = "
  const UndefinedGuard := ";\n\t\t\t\tif (typeof __rust_result === 'undefined')\n\t\t\t\t\t__rust_result = null;\n\n\t\t\t\t"
  const ReturnStatement := "Deno.core.ops.op_return(__rust_result);"
  const InvocationTail := "\n\t\t\t})()"

  /** Everything an invocation program has after the call expression. */
  const InvocationSuffix := UndefinedGuard + ReturnStatement + InvocationTail

  /** Calls `f` with the argument list `a`, awaiting the result only when `f` is an
      `async` function. */
  function CallExpression(f: string, a: string): string {
    f + ".constructor.name === 'AsyncFunction' ? await " + f + "(" + a + ") : " + f + "(" + a + ")"
  }

  /** What a call expression has before its first copy of the argument list. */
  function CallPrefix(f: string): string {
    f + ".constructor.name === 'AsyncFunction' ? await " + f + "("
  }

  /** The program `call_impl` runs: an async closure that calls the function, replaces
      `undefined` by `null` and passes the result to `op_return`. The function name and
      the argument text are inserted verbatim. */
  function InvocationSource(f: string, a: string): (code: string)
    ensures InfixAt(InvocationHead, code, 0)
    ensures InfixAt(CallExpression(f, a), code, |InvocationHead|)
    ensures InfixAt(UndefinedGuard, code, |InvocationHead| + |CallExpression(f, a)|)
    ensures InfixAt(ReturnStatement, code, |InvocationHead| + |CallExpression(f, a)| + |UndefinedGuard|)
    ensures Infix("await " + f + "(" + a + ")", code)
    ensures CallOf(code) == Some(CallExpression(f, a))
  {
    var code := InvocationHead + CallExpression(f, a) + UndefinedGuard + ReturnStatement + InvocationTail;
    FiveParts(InvocationHead, CallExpression(f, a), UndefinedGuard, ReturnStatement, InvocationTail);
    var pre, awaited, post := f + ".constructor.name === 'AsyncFunction' ? ", "await " + f + "(" + a + ")", " : " + f + "(" + a + ")";
    AwaitedCall(f, a);
    Regroup(InvocationHead, CallExpression(f, a), UndefinedGuard + ReturnStatement + InvocationTail, pre, awaited, post);
    InfixOfConcat(InvocationHead + pre, awaited, post + (UndefinedGuard + ReturnStatement + InvocationTail));
    BetweenExactly(InvocationHead, InvocationSuffix, code, CallExpression(f, a));
    code
  }

  /** The call expression of an invocation program. */
  function CallOf(code: string): Option<string> {
    Between(InvocationHead, InvocationSuffix, code)
  }

  /** `CallOf` recovers the call expression of exactly the programs `InvocationSource`
      writes. */
  lemma CallOfOnlyInvocations(code: string, f: string, a: string)
    ensures CallOf(code) == Some(CallExpression(f, a)) <==> code == InvocationSource(f, a)
  {
    FiveParts(InvocationHead, CallExpression(f, a), UndefinedGuard, ReturnStatement, InvocationTail);
    BetweenExactly(InvocationHead, InvocationSuffix, code, CallExpression(f, a));
  }

  /** The argument text is recoverable from the program: two programs calling the same
      function are equal exactly when their argument texts are. */
  lemma InvocationArgsRecoverable(f: string, a: string, a': string)
    ensures InvocationSource(f, a) == InvocationSource(f, a') <==> a == a'
  {
    if InvocationSource(f, a) == InvocationSource(f, a') {
      var c, c' := CallExpression(f, a), CallExpression(f, a');
      assert c == c';
      ArgsInCall(f, a);
      ArgsInCall(f, a');
      assert |a| == |a'|;
      InfixOfConcat(CallPrefix(f), a, ") : " + f + "(" + a + ")");
      InfixOfConcat(CallPrefix(f), a', ") : " + f + "(" + a' + ")");
    }
  }

  lemma ArgsInCall(f: string, a: string)
    ensures CallExpression(f, a) == CallPrefix(f) + a + (") : " + f + "(" + a + ")")
    ensures |CallExpression(f, a)| == |CallPrefix(f)| + 2 * |a| + |f| + 6
  {
  }

  /** Where each of five concatenated parts sits in the whole. */
  lemma FiveParts(h: string, c: string, g: string, ret: string, t: string)
    ensures h + c + g + ret + t == h + c + (g + ret + t)
    ensures InfixAt(h, h + c + g + ret + t, 0)
    ensures InfixAt(c, h + c + g + ret + t, |h|)
    ensures InfixAt(g, h + c + g + ret + t, |h| + |c|)
    ensures InfixAt(ret, h + c + g + ret + t, |h| + |c| + |g|)
  {
    var whole := h + c + g + ret + t;
    assert whole[..|h|] == h;
    assert whole == h + c + (g + ret + t);
    InfixOfConcat(h, c, g + ret + t);
    assert whole == (h + c) + g + (ret + t);
    InfixOfConcat(h + c, g, ret + t);
    InfixOfConcat(h + c + g, ret, t);
  }

  lemma AwaitedCall(f: string, a: string)
    ensures CallExpression(f, a)
         == (f + ".constructor.name === 'AsyncFunction' ? ") + ("await " + f + "(" + a + ")") + (" : " + f + "(" + a + ")")
  {
  }

  lemma Regroup(h: string, c: string, rest: string, pre: string, mid: string, post: string)
    requires c == pre + mid + post
    ensures h + c + rest == (h + pre) + mid + (post + rest)
  {
  }

  // ---------------------------------------------------------------------------
  // Running code and the result slot

  /** `op_return`: stores its argument in the resource table under a fresh id and
      hands `null` back to JavaScript. */
  function OpReturn(t: ResourceTable, v: JsValue): (r: (ResourceTable, JsValue))
    ensures r.1 == Null
    ensures r.0.Lookup(t.nextRid) == Some(v)
    ensures forall rid :: rid != t.nextRid ==> r.0.Lookup(rid) == t.Lookup(rid)
    ensures r.0.index.Keys == t.index.Keys + {t.nextRid}
    ensures r.0.nextRid == t.nextRid + 1
  {
    (t.Add(v).0, Null)
  }

  /** `execute_script` followed by running the event loop: the code is executed, the
      run `x` deposits its result through `op_return` if it reaches it, and the error,
      if any, is reported. */
  function Run(rt: JsRuntime, code: string, x: Exec): (r: (JsRuntime, Option<AnyError>))
    ensures r.0.executed == rt.executed + [Source(DefaultFilename, code)]
    ensures r.1.Some? <==> x.Fails()
    ensures x.Fails() ==> r.1 == Some(x.error)
    ensures x.Deposits() ==> r.0.table == OpReturn(rt.table, x.value).0
    ensures !x.Deposits() ==> r.0.table == rt.table
  {
    var table := if x.Deposits() then OpReturn(rt.table, x.value).0 else rt.table;
    var rt' := JsRuntime(rt.executed + [Source(DefaultFilename, code)], table);
    if x.Fails() then (rt', Some(x.error)) else (rt', None)
  }

  /** `Script::call_impl` as written: a failed run is reported before the slot is
      read, and leaves `last_rid` and the table where the run left them, even when the
      run had already deposited its result. Otherwise the entry under `last_rid` is
      taken (a missing entry panics) and `last_rid` advances by one. */
  function CallImplAsWritten(s: Script, fnName: string, jsonArgs: string, x: Exec): (r: (Script, Outcome<JsValue, JsError>))
    ensures r.0.timeout == s.timeout
    ensures r.0.runtime.executed == s.runtime.executed + [Source(DefaultFilename, InvocationSource(fnName, jsonArgs))]
    ensures r.1.Failed? <==> x.Fails()
    ensures r.1.Failed? ==> r.1.error == FromAnyError(x.error) && r.0.lastRid == s.lastRid
    ensures r.1.Done? ==> r.0.lastRid == s.lastRid + 1
    ensures r.1.Done? ==> Some(r.1.value) == Run(s.runtime, InvocationSource(fnName, jsonArgs), x).0.table.Lookup(s.lastRid)
    ensures r.1.Done? ==> r.0.runtime.table == Run(s.runtime, InvocationSource(fnName, jsonArgs), x).0.table.Take(s.lastRid).0
    ensures !r.1.Done? ==> r.0.runtime == Run(s.runtime, InvocationSource(fnName, jsonArgs), x).0
    ensures r.1.Panic? <==> !x.Fails() && Run(s.runtime, InvocationSource(fnName, jsonArgs), x).0.table.Lookup(s.lastRid).None?
    ensures Synced(s) && !x.DepositedThenThrew? ==> Synced(r.0)
    ensures Synced(s) && x.DepositedThenThrew? ==>
      r.0.lastRid == s.lastRid && r.0.runtime.table.Lookup(s.lastRid) == Some(x.value)
  {
    var (rt, err) := Run(s.runtime, InvocationSource(fnName, jsonArgs), x);
    if err.Some? then (s.(runtime := rt), Failed(FromAnyError(err.value)))
    else
      var (table, entry) := rt.table.Take(s.lastRid);
      if entry.None? then (s.(runtime := rt), Panic(MissingEntry))
      else (Script(rt.(table := table), s.lastRid + 1, s.timeout), Done(entry.value))
  }

  /** `Script::call_impl`, with the slot of a failed run freed: when the run deposited
      its result before failing, that entry is taken and dropped and `last_rid`
      advances, so that the next call reads its own result. Every other case is as
      written. */
  function CallImpl(s: Script, fnName: string, jsonArgs: string, x: Exec): (r: (Script, Outcome<JsValue, JsError>))
    ensures r.0.timeout == s.timeout
    ensures r.0.runtime.executed == s.runtime.executed + [Source(DefaultFilename, InvocationSource(fnName, jsonArgs))]
    ensures r.1.Failed? <==> x.Fails()
    ensures r.1.Failed? ==> r.1.error == FromAnyError(x.error)
    ensures Synced(s) ==> Synced(r.0)
    ensures Synced(s) ==> (r.1.Done? <==> x.Deposited?)
    ensures Synced(s) && x.Deposited? ==> r.1.value == x.value
    ensures Synced(s) ==> (r.1.Panic? <==> x.Silent?)
    ensures Synced(s) ==> r.0.lastRid == if x.Deposits() then s.lastRid + 1 else s.lastRid
  {
    var (rt, err) := Run(s.runtime, InvocationSource(fnName, jsonArgs), x);
    var (table, entry) := rt.table.Take(s.lastRid);
    if err.Some? then
      if entry.Some? then (Script(rt.(table := table), s.lastRid + 1, s.timeout), Failed(FromAnyError(err.value)))
      else (s.(runtime := rt), Failed(FromAnyError(err.value)))
    else if entry.None? then (s.(runtime := rt), Panic(MissingEntry))
    else (Script(rt.(table := table), s.lastRid + 1, s.timeout), Done(entry.value))
  }

  /** The two versions differ only on a run that deposited its result and then failed. */
  lemma CallImplAsWrittenAgrees(s: Script, fnName: string, jsonArgs: string, x: Exec)
    ensures Synced(s) && !x.DepositedThenThrew? ==>
      CallImplAsWritten(s, fnName, jsonArgs, x) == CallImpl(s, fnName, jsonArgs, x)
  {
  }

  /** `Script::call_json`: the argument value, written as JSON, is the argument list of
      a call as written. In step, a run that deposits and then fails leaves the script
      out of step. */
  function CallJson(s: Script, fnName: string, args: JsValue, x: Exec): (r: (Script, Outcome<JsValue, JsError>))
    ensures r.0.runtime.executed == s.runtime.executed + [Source(DefaultFilename, InvocationSource(fnName, Render(args)))]
    ensures r.1.Failed? <==> x.Fails()
    ensures r.1.Failed? ==> r.1.error == FromAnyError(x.error) && r.0.lastRid == s.lastRid
    ensures Synced(s) && !x.DepositedThenThrew? ==>
      Synced(r.0) && (r.1.Done? <==> x.Deposited?) && (r.1.Panic? <==> x.Silent?)
    ensures Synced(s) && x.Deposited? ==> r.1 == Done(x.value)
    ensures Synced(s) && x.DepositedThenThrew? ==> !Synced(r.0)
    ensures r == CallImplAsWritten(s, fnName, Render(args), x)
  {
    CallImplAsWritten(s, fnName, Render(args), x)
  }

  /** `Script::call_json` over the corrected `call_impl`: it stays in step on every run,
      and agrees with the call as written except on a run that deposits and then fails. */
  function CallJsonCorrected(s: Script, fnName: string, args: JsValue, x: Exec): (r: (Script, Outcome<JsValue, JsError>))
    ensures r.0.runtime.executed == s.runtime.executed + [Source(DefaultFilename, InvocationSource(fnName, Render(args)))]
    ensures r.1.Failed? <==> x.Fails()
    ensures r.1.Failed? ==> r.1.error == FromAnyError(x.error)
    ensures Synced(s) ==> Synced(r.0) && (r.1.Done? <==> x.Deposited?) && (r.1.Panic? <==> x.Silent?)
    ensures Synced(s) && x.Deposited? ==> r.1 == Done(x.value)
    ensures Synced(s) && !x.DepositedThenThrew? ==> r == CallJson(s, fnName, args, x)
  {
    CallImplAsWrittenAgrees(s, fnName, Render(args), x);
    CallImpl(s, fnName, Render(args), x)
  }

  /** The last step of `Script::call`: the JSON result converted with `fromValue`
      (serde's `from_value`); a conversion failure is a `Json` error. */
  function DecodeOutcome<R>(o: Outcome<JsValue, JsError>, fromValue: JsValue -> Result<R, JsonError>): (d: Outcome<R, JsError>)
    ensures o.Failed? ==> d == Failed(o.error)
    ensures o.Panic? ==> d == Panic(o.message)
    ensures o.Done? && fromValue(o.value).Ok? ==> d == Done(fromValue(o.value).value)
    ensures o.Done? && fromValue(o.value).Err? ==> d == Failed(FromJsonError(fromValue(o.value).error))
  {
    match o
    case Panic(m) => Panic(m)
    case Failed(e) => Failed(e)
    case Done(v) =>
      match fromValue(v)
      case Err(e) => Failed(FromJsonError(e))
      case Ok(res) => Done(res)
  }

  /** `Script::call`: encodes the argument tuple, runs the call as written and converts
      the result with `fromValue`. An encoding failure returns before anything runs; a
      conversion failure happens after the slot was consumed. */
  function Call<H, R>(s: Script, fnName: string, args: seq<H>, toValue: H -> Result<JsValue, JsonError>,
                      x: Exec, fromValue: JsValue -> Result<R, JsonError>): (r: (Script, Outcome<R, JsError>))
    requires |args| <= MaxArity
    ensures IntoArgString(args, toValue).Err? ==> r == (s, Failed(IntoArgString(args, toValue).error))
    ensures IntoArgString(args, toValue).Ok? ==>
      r.0 == CallImplAsWritten(s, fnName, IntoArgString(args, toValue).value, x).0
    ensures IntoArgString(args, toValue).Ok? && x.Fails() ==> r.1 == Failed(FromAnyError(x.error))
    ensures IntoArgString(args, toValue).Ok? && Synced(s) && x.Silent? ==> r.1 == Panic(MissingEntry)
    ensures IntoArgString(args, toValue).Ok? && Synced(s) && !x.DepositedThenThrew? ==> Synced(r.0)
    ensures IntoArgString(args, toValue).Ok? && Synced(s) && x.Deposited? ==>
      r.0.lastRid == s.lastRid + 1 &&
      (fromValue(x.value).Ok? ==> r.1 == Done(fromValue(x.value).value)) &&
      (fromValue(x.value).Err? ==> r.1 == Failed(FromJsonError(fromValue(x.value).error)))
    ensures IntoArgString(args, toValue).Ok? ==>
      r.1 == DecodeOutcome(CallImplAsWritten(s, fnName, IntoArgString(args, toValue).value, x).1, fromValue)
  {
    match IntoArgString(args, toValue)
    case Err(e) => (s, Failed(e))
    case Ok(a) =>
      var (s', o) := CallImplAsWritten(s, fnName, a, x);
      (s', DecodeOutcome(o, fromValue))
  }

  /** `Script::call` over the corrected `call_impl`: the same, except that it stays in
      step on every run. */
  function CallCorrected<H, R>(s: Script, fnName: string, args: seq<H>, toValue: H -> Result<JsValue, JsonError>,
                               x: Exec, fromValue: JsValue -> Result<R, JsonError>): (r: (Script, Outcome<R, JsError>))
    requires |args| <= MaxArity
    ensures IntoArgString(args, toValue).Err? ==> r == (s, Failed(IntoArgString(args, toValue).error))
    ensures IntoArgString(args, toValue).Ok? && x.Fails() ==> r.1 == Failed(FromAnyError(x.error))
    ensures IntoArgString(args, toValue).Ok? && Synced(s) ==> Synced(r.0)
    ensures IntoArgString(args, toValue).Ok? && Synced(s) && x.Silent? ==> r.1 == Panic(MissingEntry)
    ensures IntoArgString(args, toValue).Ok? && Synced(s) && x.Deposited? ==>
      (fromValue(x.value).Ok? ==> r.1 == Done(fromValue(x.value).value)) &&
      (fromValue(x.value).Err? ==> r.1 == Failed(FromJsonError(fromValue(x.value).error)))
    ensures Synced(s) && !x.DepositedThenThrew? ==> r == Call(s, fnName, args, toValue, x, fromValue)
  {
    match IntoArgString(args, toValue)
    case Err(e) => (s, Failed(e))
    case Ok(a) =>
      CallImplAsWrittenAgrees(s, fnName, a, x);
      var (s', o) := CallImpl(s, fnName, a, x);
      (s', DecodeOutcome(o, fromValue))
  }

  // ---------------------------------------------------------------------------
  // Sequences of calls

  /** One call of a series: the function, its argument text and what the run does. */
  datatype CallStep = CallStep(fnName: string, jsonArgs: string, x: Exec)

  /** Runs the calls one after another on the same script. */
  function CallSeries(s: Script, steps: seq<CallStep>): (r: (Script, seq<Outcome<JsValue, JsError>>))
    ensures |r.1| == |steps|
    decreases |steps|
  {
    if |steps| == 0 then (s, [])
    else
      var (s1, o) := CallImpl(s, steps[0].fnName, steps[0].jsonArgs, steps[0].x);
      var (s2, os) := CallSeries(s1, steps[1..]);
      (s2, [o] + os)
  }

  /** Starting in step, every call of a series returns the value its own run deposited,
      whatever the runs before it did, and the script stays in step. */
  lemma {:induction false} EachCallReadsOwnResult(s: Script, steps: seq<CallStep>)
    requires Synced(s)
    ensures Synced(CallSeries(s, steps).0)
    ensures forall i :: 0 <= i < |steps| ==>
      (CallSeries(s, steps).1[i].Done? <==> steps[i].x.Deposited?)
    ensures forall i :: 0 <= i < |steps| && steps[i].x.Deposited? ==>
      CallSeries(s, steps).1[i].value == steps[i].x.value
    decreases |steps|
  {
    if |steps| > 0 {
      var (s1, o) := CallImpl(s, steps[0].fnName, steps[0].jsonArgs, steps[0].x);
      EachCallReadsOwnResult(s1, steps[1..]);
      var os := CallSeries(s1, steps[1..]).1;
      assert CallSeries(s, steps).1 == [o] + os;
      forall i | 1 <= i < |steps|
        ensures CallSeries(s, steps).1[i] == os[i - 1] && steps[i] == steps[1..][i - 1]
      {
      }
    }
  }

  /** Runs the calls one after another on the same script, with `call_impl` as
      written. */
  function CallSeriesAsWritten(s: Script, steps: seq<CallStep>): (r: (Script, seq<Outcome<JsValue, JsError>>))
    ensures |r.1| == |steps|
    decreases |steps|
  {
    if |steps| == 0 then (s, [])
    else
      var (s1, o) := CallImplAsWritten(s, steps[0].fnName, steps[0].jsonArgs, steps[0].x);
      var (s2, os) := CallSeriesAsWritten(s1, steps[1..]);
      (s2, [o] + os)
  }

  /** No run of the series deposits its result and then fails. */
  predicate NoLateFailure(steps: seq<CallStep>) {
    forall i :: 0 <= i < |steps| ==> !steps[i].x.DepositedThenThrew?
  }

  /** Starting in step, a series without a run that deposits and then fails goes the
      same way as written and corrected. */
  lemma {:induction false} SeriesAgree(s: Script, steps: seq<CallStep>)
    requires Synced(s) && NoLateFailure(steps)
    ensures CallSeriesAsWritten(s, steps) == CallSeries(s, steps)
    decreases |steps|
  {
    if |steps| > 0 {
      CallImplAsWrittenAgrees(s, steps[0].fnName, steps[0].jsonArgs, steps[0].x);
      var s1 := CallImpl(s, steps[0].fnName, steps[0].jsonArgs, steps[0].x).0;
      assert forall i :: 0 <= i < |steps| - 1 ==> steps[1..][i] == steps[i + 1];
      SeriesAgree(s1, steps[1..]);
    }
  }

  /** As written, every call of a series started in step returns the value its own run
      deposited, as long as no run deposits and then fails. */
  lemma EachCallReadsOwnResultAsWritten(s: Script, steps: seq<CallStep>)
    requires Synced(s) && NoLateFailure(steps)
    ensures Synced(CallSeriesAsWritten(s, steps).0)
    ensures forall i :: 0 <= i < |steps| ==>
      (CallSeriesAsWritten(s, steps).1[i].Done? <==> steps[i].x.Deposited?)
    ensures forall i :: 0 <= i < |steps| && steps[i].x.Deposited? ==>
      CallSeriesAsWritten(s, steps).1[i].value == steps[i].x.value
  {
    SeriesAgree(s, steps);
    EachCallReadsOwnResult(s, steps);
  }

  /** A counter function called twice on a fresh script with the one-element tuple
      `((),)`, whose argument text is `null`: the first call returns 1 and the second 2,
      each from its own slot. */
  lemma CounterReturnsOneThenTwo(src: string)
    requires FromString(src, None).Ok?
    ensures
      var toValue := (u: ()) => Ok(Null);
      var fromValue := (v: JsValue) => if v.Number? then Ok(v.n) else Err(JsonError("invalid type"));
      var s0 := FromString(src, None).value;
      var (s1, first) := Call(s0, "inc", [()], toValue, Deposited(Number(1)), fromValue);
      var (s2, second) := Call(s1, "inc", [()], toValue, Deposited(Number(2)), fromValue);
      IntoArgString([()], toValue) == Ok("null") &&
      first == Done(1) && second == Done(2) && s1.lastRid == 1 && s2.lastRid == 2
  {
    assert Render(Null) == "null";
  }

  // ---------------------------------------------------------------------------
  // The stale slot left by the source

  /** As written, a run that deposits and then fails leaves its entry behind, and the
      next call returns that stale value instead of its own. */
  lemma StaleResultAsWritten(s: Script, e: AnyError)
    requires Synced(s)
    ensures
      var (s1, first) := CallImplAsWritten(s, "f", "", DepositedThenThrew(Number(1), e));
      var (s2, second) := CallImplAsWritten(s1, "g", "", Deposited(Number(2)));
      first.Failed? && second == Done(Number(1))
  {
  }

  /** The stale value seen through `Script::call`: a counter function called with
      `((),)` whose first run deposits 1 and then fails makes the second call, whose
      own run deposits 2, return 1. */
  lemma StaleCallResultAsWritten(s: Script, e: AnyError)
    requires Synced(s)
    ensures
      var toValue := (u: ()) => Ok(Null);
      var fromValue := (v: JsValue) => if v.Number? then Ok(v.n) else Err(JsonError("invalid type"));
      var (s1, first) := Call(s, "inc", [()], toValue, DepositedThenThrew(Number(1), e), fromValue);
      var (s2, second) := Call(s1, "inc", [()], toValue, Deposited(Number(2)), fromValue);
      first == Failed(FromAnyError(e)) && !Synced(s1) && second == Done(1)
  {
    assert Render(Null) == "null";
  }

  /** With the slot freed, the same two calls return the error and then the second
      call's own value. */
  lemma OwnResultCorrected(s: Script, e: AnyError)
    requires Synced(s)
    ensures
      var (s1, first) := CallImpl(s, "f", "", DepositedThenThrew(Number(1), e));
      var (s2, second) := CallImpl(s1, "g", "", Deposited(Number(2)));
      first.Failed? && second == Done(Number(2))
  {
  }
}

=== FILE: util.dfy ===
/** `eval_json` (js-sandbox/src/util.rs): evaluates one JavaScript expression in a fresh
    script by wrapping it in a function and calling that function with `null`. */
module Util {
  import opened Outcomes
  import opened Json
  import opened JsErrors
  import opened Engine
  import opened Scripts

  /** The name of the wrapping function. */
  const ExprFunction := "__rust_expr"

  const EvalHead := "\n\t\tfunction __rust_expr() {\n\t\t\treturn ("
  const EvalTail := ");\n\t\t}\n\t"

  /** The program `eval_json` loads: a function returning the expression, which is
      inserted verbatim between parentheses. */
  function EvalSource(expr: string): (code: string)
    ensures |code| == |EvalHead| + |expr| + |EvalTail|
    ensures ExprOf(code) == Some(expr)
  {
    var code := EvalHead + expr + EvalTail;
    assert code[..|EvalHead|] == EvalHead;
    assert code[|code| - |EvalTail|..] == EvalTail;
    assert code[|EvalHead|..|code| - |EvalTail|] == expr;
    code
  }

  /** Recovers the expression from a program of the shape `EvalSource` writes. */
  function ExprOf(code: string): Option<string> {
    if |code| >= |EvalHead| + |EvalTail|
       && code[..|EvalHead|] == EvalHead
       && code[|code| - |EvalTail|..] == EvalTail
    then Some(code[|EvalHead|..|code| - |EvalTail|])
    else None
  }

  /** `ExprOf` recovers exactly the programs `EvalSource` writes. */
  lemma ExprOfOnlyEvalSources(code: string, expr: string)
    ensures ExprOf(code) == Some(expr) <==> code == EvalSource(expr)
  {
    if ExprOf(code) == Some(expr) {
      var n := |code|;
      assert code == code[..|EvalHead|] + code[|EvalHead|..n - |EvalTail|] + code[n - |EvalTail|..];
    }
  }

  /** `eval_json`: loads the wrapped expression into a fresh script (`loadError` is what
      the engine reports for it) and calls the wrapper with the JSON argument `null`;
      `x` is what that call's run does. A load failure returns before any call. */
  function EvalJson(expr: string, loadError: Option<AnyError>, x: Exec): (r: Outcome<JsValue, JsError>)
    ensures loadError.Some? ==> r == Failed(FromAnyError(loadError.value))
    ensures loadError.None? ==> (r.Done? <==> x.Deposited?)
    ensures loadError.None? && x.Deposited? ==> r.value == x.value
    ensures loadError.None? ==> (r.Failed? <==> x.Fails())
    ensures loadError.None? && x.Fails() ==> r.error == FromAnyError(x.error)
  {
    match FromString(EvalSource(expr), loadError)
    case Err(e) => Failed(e)
    case Ok(script) => CallJson(script, ExprFunction, Null, x).1
  }

  /** The call `eval_json` makes on its fresh script: it invokes `__rust_expr(null)`,
      reads slot 0 and leaves the script in step with its next slot 1. */
  lemma EvalCallsWrapperWithNull(expr: string, v: JsValue)
    ensures FromString(EvalSource(expr), None).Ok?
    ensures
      var script := FromString(EvalSource(expr), None).value;
      var (after, o) := CallJson(script, ExprFunction, Null, Deposited(v));
      script.lastRid == 0 && after.lastRid == 1 && Synced(after) && o == Done(v) &&
      after.runtime.executed[1] == Source(DefaultFilename, InvocationSource("__rust_expr", "null")) &&
      Infix("await __rust_expr(null)", after.runtime.executed[1].code)
  {
    var script := FromString(EvalSource(expr), None).value;
    assert Render(Null) == "null";
    assert "await " + "__rust_expr" + "(" + "null" + ")" == "await __rust_expr(null)";
  }

  /** What `eval_json` returns for every way the wrapped expression can end: its value,
      with `undefined` as `null`, when it returns and the event loop finishes; the
      exception when it throws; the event loop's error when that fails; and the panic
      on the empty slot when a promise never settles. */
  lemma EvalJsonOfSettlement(expr: string, st: Settlement, loopError: Option<AnyError>)
    ensures EvalJson(expr, None, RunInvocation(st, loopError)) ==
      if st.Throws? then Failed(FromAnyError(st.error))
      else if loopError.Some? then Failed(FromAnyError(loopError.value))
      else if st.Returns? then Done(NullIfUndefined(st.result))
      else Panic(MissingEntry)
  {
  }

  /** An expression whose value is `undefined`, such as a `console.log(...)` call,
      evaluates to `null`. */
  lemma UndefinedEvaluatesToNull(expr: string)
    ensures EvalJson(expr, None, RunInvocation(Returns(Undefined), None)) == Done(Null)
  {
  }
}
